=== FILE: README.md ===
# DBFetch core in Dafny

DBFetch reads rows from a dBASE (`.dbf`) table and turns them into PostgreSQL
`INSERT` statements. It can also execute those statements through a pooled
connection. This project models the logic of that pipeline as pure functions
and proves properties about it:

- **`SQLFormatter`** (`sql_formatter.dfy`, worked example in `sql_examples.dfy`).
  - The value encoder `format_value` picks the rendering from the DBF type
    letter: `N` bare, `D` quoted, `C` quoted and escaped, `M` as an `E'...'`
    literal, anything else (including `L`) like `C`.
  - The table-name check `_validate_table_name`.
  - The batcher `create_insert_statements` / `_create_single_insert`.
- **`DBFReader`** (`dbf_reader.dfy`). The table is a given sequence of records plus its
  field list. Modelled:
  - the `max_records` clamp;
  - the prefix and suffix windows (including Python's `records[-0:]`);
  - field-descriptor shaping;
  - the file-name-to-table-name sanitiser.
- **`DBConnection`** (`db_connection.dfy`). The driver is abstract:
  - the pool is `None` or a handle that is open or closed;
  - connecting, checking out, opening a cursor and executing take the driver's outcome as a parameter.

  Modelled: the singleton constructor, pool initialisation and its failure
  classifier, ensure-open, scoped checkout, the outcome policy of
  `execute_query` and `close_pool`.
- **`config.py`** (`config.dfy`): `validate_config_value` over `CONFIG_RULES` and
  `DEFAULT_CONFIG`.

The shared modules are:
- `Wrappers`: `Option` and `Result`.
- `Text`: Python's whitespace class, ASCII case mapping, `strip`, substring
  search, `str(int)` and `int(str)`.
- `Schema`: cell values, records, field descriptors, `str()` and truthiness.

## Model

| member | source | states |
|---|---|---|
| SqlFormatter.KindOf | models/sql_formatter.py:30-56 | the default branch is taken exactly for type letters other than `N`, `D`, `C`, `M`, so `L`, listed in `FIELD_TYPES`, is rendered by the default branch |
| SqlFormatter.QuotedEscapeIsReplaceChain | models/sql_formatter.py:36-37 | doubling quotes and then doubling backslashes equals one per-character escaper, because neither replacement introduces the other's character |
| SqlFormatter.UnescapeQuotedInverts | models/sql_formatter.py:34-38 | collapsing `''` to `'` and `\\` to `\` recovers the original text, and the escaped body has no unpaired quote |
| SqlFormatter.MemoEscapeIsReplaceChain | models/sql_formatter.py:45-49 | the five sequential replaces (quote, backslash, LF, CR, TAB) equal the per-character memo escaper |
| SqlFormatter.UnescapeMemoInverts | models/sql_formatter.py:44-49 | decoding `''`, `\\`, `\n`, `\r`, `\t` recovers the original text; the escaped body has paired quotes and no raw LF, CR or TAB |
| SqlFormatter.FormatValueShape | models/sql_formatter.py:27-56 | `None` gives `NULL` for every type; a memo gives `NULL` exactly when the value is falsy; a `C` or default-type value gives `'` + body + `'` with no unpaired quote in the body |
| SqlFormatter.QuotedLiteralRoundTrip | models/sql_formatter.py:52-56 | a `C` or default-type literal reads back as exactly `str(value)` |
| SqlFormatter.MemoLiteralRoundTrip | models/sql_formatter.py:39-51 | a non-empty memo is `E'` + body + `'`, reads back as exactly `str(value)`, and has no raw LF, CR or TAB anywhere |
| SqlFormatter.NumericAndDateRendering | models/sql_formatter.py:30-33 | an integer under `N` is unquoted decimal text that `int()` reads back as the same integer (up to Python's 4300-digit conversion limit, see Left out); a date under `D` is quoted without escaping |
| SqlFormatter.LogicalRendering | models/sql_formatter.py:16-22 | `True` under `L` renders `'True'`: the letter is listed but has no branch of its own |
| SqlFormatter.EmptyCharacterAndMemo | models/sql_formatter.py:34-41 | an empty string under `C` is the empty literal `''`; under `M` it is `NULL` |
| SqlFormatter.FormatValue | models/sql_formatter.py:25-56 | `None` is `NULL` under every type letter; under `M` the result is `NULL` exactly when the value is falsy; every other non-`N` literal ends in a quote |
| SqlFormatter.ValidateTableName | models/sql_formatter.py:104-113 | a name is accepted iff it has a character other than `_` and every character is `_` or alphanumeric |
| SqlFormatter.TableNameAccepted | models/sql_formatter.py:113 | `cancf_di` is accepted |
| SqlFormatter.TableNameRejectedForeign | models/sql_formatter.py:113 | `bad name` and `tab;le` are rejected |
| SqlFormatter.TableNameRejectedEmpty | models/sql_formatter.py:113 | the empty name and `___` are rejected |
| SqlFormatter.RejectsForeignChar | models/sql_formatter.py:113 | one character that is neither `_` nor alphanumeric rejects the name |
| SqlFormatter.AcceptsLowerAndUnderscore | models/sql_formatter.py:113 | a name of lower-case letters, digits and `_` with at least one letter or digit is accepted |
| SqlFormatter.Batches | models/sql_formatter.py:76-78 | there is at least one batch exactly when there is at least one record (the partition itself is `BatchesPartition`) |
| SqlFormatter.BatchesPartition | models/sql_formatter.py:76-81 | for batch size B, N records give ceil(N/B) non-empty batches of at most B, all but the last exactly B, whose concatenation is the input in order |
| SqlFormatter.BatchAt | models/sql_formatter.py:77-78 | batch k is the slice `records[k*B : k*B + B]` |
| SqlFormatter.RowValues | models/sql_formatter.py:88-98 | one literal per field, in field order, each `format_value` of that field's value under its type letter |
| SqlFormatter.RowTuple | models/sql_formatter.py:88-99 | a tuple is the literal of every field, in field order, joined by `,` inside parentheses; it opens with the first field's literal |
| SqlFormatter.RowValuesInFieldOrder | models/sql_formatter.py:88-99 | a row holds one literal per field, in field order, each being `format_value` of that field's value under its type |
| SqlFormatter.RowTuplesInRecordOrder | models/sql_formatter.py:89-99 | one parenthesised tuple per record, in record order |
| SqlFormatter.SingleInsert | models/sql_formatter.py:83-101 | the statement is `INSERT INTO <t> (<columns>) VALUES ` followed by every record's tuple, in record order, joined by `,` |
| SqlFormatter.InsertStatements | models/sql_formatter.py:65-81 | an invalid table name fails first; then empty fields or records fail; a valid name with non-empty fields and records always succeeds, and success means exactly that; the statement count is then ceil(N/B) |
| SqlFormatter.InsertStatementsDefault | models/sql_formatter.py:58 | with the batch size left out, a valid name with non-empty inputs succeeds and records go in batches of 1000: ceil(N/1000) statements, one statement for up to 1000 records |
| SqlFormatter.StatementsAreSlices | models/sql_formatter.py:76-81 | statement k is the single insert of exactly `records[k*B : k*B + B]` |
| SqlFormatter.EveryStatementSharesHeader | models/sql_formatter.py:86-101 | every statement starts with `INSERT INTO <t> (<names joined by ,>) VALUES ` |
| SqlFormatter.BuildStatements | models/sql_formatter.py:76-81 | the loop over `range(0, len(records), batch_size)` produces one statement per batch, in batch order |
| SqlFormatter.CreateInsertStatements | models/sql_formatter.py:58-81 | the method agrees with `InsertStatements`, and on success statement k renders `records[k*B : k*B + B]` |
| SqlExamples.SpecimenStatement | models/sql_formatter.py:86-101 | fields AMOUNT (N) and STATUS (C) with records (100, `A`) and (200, `B'x`) give `INSERT INTO t (AMOUNT,STATUS) VALUES (100,'A'),(200,'B''x')` |
| SqlExamples.OneBatch | models/sql_formatter.py:76-81 | no more records than the batch size and a valid name give exactly one statement |
| DbfReader.ClampMaxRecords | models/dbf_reader.py:14 | the limit is at most 30000 and never 0; it is 30000 or the argument |
| DbfReader.ClampCases | models/dbf_reader.py:14 | an explicit `None`, 0 and anything at least 30000 become 30000; any other value is kept, negatives included |
| DbfReader.NewReader | models/dbf_reader.py:6-15 | the reader keeps the path, and its cap is at most 30000, never 0, and equal to the argument when that lies strictly between 0 and 30000 |
| DbfReader.NewReaderDefault | models/dbf_reader.py:6-14 | with the cap left out, the reader's cap is 1000 |
| DbfReader.TakeDropSplit | models/dbf_reader.py:118 | Python's `s[:k] + s[k:] == s` for every integer k, negative included |
| DbfReader.TakeLength | models/dbf_reader.py:118 | `len(s[:k])` is `min(k, len(s))` for k ≥ 0 and counts from the end for negative k |
| DbfReader.GetNRecords | models/dbf_reader.py:114-118 | the result is a prefix of the records |
| DbfReader.GetNRecordsLength | models/dbf_reader.py:114-118 | for non-negative inputs the prefix has length min(limit, len, max_records); no limit means max_records |
| DbfReader.GetNRecordsNegative | models/dbf_reader.py:116-118 | with a non-negative cap, a negative limit drops that many records from the end |
| DbfReader.GetLastNRecords | models/dbf_reader.py:139-141 | the result is a suffix of the records |
| DbfReader.GetLastNRecordsCases | models/dbf_reader.py:139-141 | with k = min(n, len, max_records): k > 0 gives the last k records, k = 0 gives all of them (`[-0:]`), k < 0 drops the first -k |
| DbfReader.LastZeroIsEverything | models/dbf_reader.py:141 | with a positive cap, asking for the last 0 records returns every record |
| DbfReader.GetFieldInfo | models/dbf_reader.py:174-186 | one descriptor per field, the i-th describing the i-th field |
| DbfReader.FieldInfoInOrder | models/dbf_reader.py:179-186 | one descriptor per field, in declaration order, with name, type and length copied, and decimal 0 when the field has none |
| DbfReader.FieldInfoNames | models/dbf_reader.py:179-186 | the descriptors' names are the fields' names, in order |
| DbfReader.GetRecordsWithFields | models/dbf_reader.py:209-225 | the records follow the same prefix rule as `get_N_records`; one descriptor per field, in field order, with name, type and length copied and decimal 0 when the field has none |
| DbfReader.Basename | models/dbf_reader.py:91 | the base name is the part of the path after the last `/` |
| DbfReader.StripExtension | models/dbf_reader.py:92 | the stem is a prefix of the file name |
| DbfReader.StripExtensionRemovesLastSuffix | models/dbf_reader.py:92 | only the last extension is removed; leading dots do not start an extension |
| DbfReader.TableNameIgnoresDirectory | models/dbf_reader.py:91-97 | the table name depends only on the file name, not on its directory |
| DbfReader.CollapseSpace | models/dbf_reader.py:96 | no whitespace is left after `re.sub(r'\s+', '_', ...)` |
| DbfReader.CollapseSurroundedRun | models/dbf_reader.py:96 | each maximal whitespace run becomes a single `_` |
| DbfReader.Sanitize | models/dbf_reader.py:95-97 | the sanitised text is drawn from `[a-z0-9_]` |
| DbfReader.GetTableName | models/dbf_reader.py:77-99 | the table name is drawn from `[a-z0-9_]`, and `_validate_table_name` accepts it iff it holds a letter or a digit |
| DbfReader.SanitizedAlphabet | models/dbf_reader.py:95-97 | a table name contains only `a-z`, `0-9` and `_` |
| DbfReader.SanitizeIdempotent | models/dbf_reader.py:95-97 | sanitising a sanitised name changes nothing |
| DbfReader.SanitizedNameValid | models/dbf_reader.py:95-97 | a sanitised name passes `_validate_table_name` iff it contains a letter or a digit |
| DbConnection.ClassifyPrecedence | models/db_connection.py:43-51 | each diagnosis iff its test holds and no earlier test holds: password failure, then missing database, then missing role, else generic |
| DbConnection.ClassifyIgnoresCase | models/db_connection.py:43-51 | the diagnosis is the same for the upper- and lower-cased message |
| DbConnection.Classify | models/db_connection.py:43-51 | the diagnosis is a password failure iff the lower-cased message contains `password authentication failed`; a missing database or role is only diagnosed when the message names it and says `does not exist` |
| DbConnection.InitializePoolProbing | models/db_connection.py:24-55 | an open pool is kept as is; otherwise a pool exists afterwards iff the driver connects; a failure raises nothing and leaves no pool; the settings are unchanged |
| DbConnection.EnsurePoolIsOpen | models/db_connection.py:57-63 | with the corrected probe, afterwards there is no pool or an open one, and the settings are unchanged |
| DbConnection.EnsurePoolIsOpenAsWritten | models/db_connection.py:57-63 | as written, any existing pool is kept, closed or not; with no pool, a pool exists afterwards iff the driver connects |
| DbConnection.EnsurePoolIsOpenEffect | models/db_connection.py:57-63 | with the corrected probe, afterwards the pool is absent or open; an open pool is untouched; a missing or closed pool is replaced iff the driver connects |
| DbConnection.EnsurePoolIsOpenIdempotent | models/db_connection.py:57-63 | once ensure-open has left a pool, a second call changes nothing, whatever the driver would do |
| DbConnection.ClosePool | models/db_connection.py:146-152 | an open pool becomes closed; no pool is a no-op; closing a closed pool raises `PoolError` |
| DbConnection.CloseThenEnsureReopens | models/db_connection.py:57-63 | with the corrected probe, after `close_pool`, ensure-open installs a fresh pool when the driver connects |
| DbConnection.CloseThenEnsureAsWrittenKeepsClosedPool | models/db_connection.py:62 | as written, ensure-open keeps the closed pool |
| DbConnection.New | models/db_connection.py:11-22 | the registry holds the instance returned |
| DbConnection.NewIsSingleton | models/db_connection.py:11-22 | a second construction returns the first instance, ignores its arguments and does not touch the pool |
| DbConnection.NewSettings | models/db_connection.py:14-21 | the first construction keeps the settings, adds `client_encoding=UTF8` only when absent, keeps the pool sizes, and leaves a pool iff the driver connects |
| DbConnection.HandlerIsFirstMatch | models/db_connection.py:107-141 | every error is caught by the first matching clause, so a DuplicateTable is handled as such and not as a ProgrammingError |
| DbConnection.GetConnectionAfterEnsure | models/db_connection.py:74-86 | a connection is lent iff an open pool lends one; no pool raises `ConnectionError` |
| DbConnection.IsSelect | models/db_connection.py:102 | a statement is a query iff its first six characters after leading whitespace upper-case to `SELECT` |
| DbConnection.SelectAfterBlanks | models/db_connection.py:102 | leading whitespace, then `select` in any mix of case, then anything, is a query |
| DbConnection.NotSelectByFirst | models/db_connection.py:102 | a statement whose first character is neither whitespace nor `s`/`S` (for example one opening with `WITH`) is not a query |
| DbConnection.RunOnConnection | models/db_connection.py:100-141 | the body never raises; rows only for a query, with no call; a row count only for a non-query, after exactly one commit; never a commit for a query; a rollback iff the result is `None` |
| DbConnection.ExecuteAfterEnsure | models/db_connection.py:97-144 | a call is made on a connection iff checkout succeeds; an escaping exception is a `PoolError` with no call, or a non-operational error from `cursor()` after which the connection is released |
| DbConnection.ExecutionProtocol | models/db_connection.py:78-106 | a connection is released exactly when one was checked out, as the last call; a SELECT never commits; a rollback happens iff a handled exception gives `None`; a row count means a commit |
| DbConnection.ExecutionSuccess | models/db_connection.py:101-106 | a SELECT (after strip and upper-casing) returns its rows; anything else commits and returns the row count |
| DbConnection.ExecutionErrorsReturnNone | models/db_connection.py:107-141 | an error from execute, fetch or commit is rolled back and gives `None`, via the first matching clause |
| DbConnection.ConnectionErrorsReturnNone | models/db_connection.py:142-144 | with the corrected probe, no pool, or a checkout that fails with `OperationalError`, gives `None` with no call on any connection |
| DbConnection.CursorFailure | models/db_connection.py:78-99 | an exception from `conn.cursor()` skips the `except` clauses: the connection is released with no rollback; an `OperationalError` gives `None`, any other class escapes |
| DbConnection.OnlyExhaustionEscapes | models/db_connection.py:74-144 | with the corrected probe, an exception escapes `execute_query` only as `PoolError` from an exhausted pool or as a non-operational error from `cursor()` |
| DbConnection.ExecuteQuery | models/db_connection.py:88-144 | with the corrected probe, afterwards the pool is absent or open, and a call is made on a connection iff a pool exists and lends one |
| DbConnection.ExecuteQueryAsWritten | models/db_connection.py:88-144 | as written, with a closed pool the call raises `PoolError`, makes no call on a connection and keeps the closed pool |
| DbConnection.ClosedPoolBreaksQueriesAsWritten | models/db_connection.py:57-144 | as written, every query after `close_pool` raises `PoolError` out of `execute_query` |
| DbConnection.ClosedPoolReopensForQueries | models/db_connection.py:57-63 | with the corrected probe, a query after `close_pool` runs on a fresh pool |
| Config.ValidateConfigValue | config.py:36-62 | unruled keys are returned unchanged; any other result is the value or its features default; only `None` under a range rule raises (`TypeError`) |
| Config.FeatureDefaults | config.py:7-27 | the fallbacks: `preview_ext` is `'txt'`, `max_records` is `'4000'`, and `port` has none (`None`) |
| Config.PreviewExtRule | config.py:48-51 | `preview_ext` keeps exactly the strings `txt` and `sql`, case-sensitively; anything else becomes `'txt'` |
| Config.InRangeKeepsOriginal | config.py:52-62 | a value whose `int()` is in range is returned as given, not converted |
| Config.RangeBoundsInclusive | config.py:30-34 | both ends of each range are accepted; the integers just outside are not |
| Config.MaxRecordsFallback | config.py:52-61 | `max_records` out of [1, 10000], or not parsable by `int`, gives the text `'4000'` |
| Config.PortFallback | config.py:52-61 | `port` out of [1, 65535], or not parsable, gives `None` |
| Config.NoneForRangeRaises | config.py:52-61 | `None` under a range rule raises `TypeError`, which `except ValueError` does not catch |
| Config.ToInt | config.py:54 | `int()` raises (`TypeError`) only for `None`; an int is itself; the text of any integer reads back as that integer (up to Python's 4300-digit conversion limit, see Left out) |
| Text.ParseIntOfIntToString | config.py:54 | `int(str(i)) == i` for every integer within Python's 4300-digit conversion limit (see Left out) |
| Text.ParseInt | config.py:54 | `int()` of all-whitespace text raises `ValueError`; a negative result comes from text whose first non-blank character is `-` |
| Text.Strip | models/db_connection.py:102 | the stripped text is the input's middle, unchanged, with only whitespace cut from either end; it neither starts nor ends with whitespace, and is empty when the input is all whitespace |
| Text.Contains | models/db_connection.py:44-48 | Python's `sub in s` holds iff `sub` occurs at some index of `s` |

## Left out

- I/O of every kind is left out: `dbfread` decoding, the file system, `print`, `logging`, memo-file discovery and `get_total_records`. The table is a given sequence of records and fields.
- Errors from reading the table are left out. The `except Exception` paths of the reader's methods, which return `None`, `[]` or `([], [])`, are not modelled.
- The record filter is left out, because no implementation of it is in the repository.
- psycopg2 is abstract. The outcome of connecting, `getconn`, `cursor()`, execute, fetch and commit is a parameter.
  - Thread safety, connection counts and network behaviour are not modelled.
  - A failing `rollback` or `putconn`, and an exception from closing the cursor at the end of its `with` block, are not modelled.
  - A failing `closeall` is only modelled for an already closed pool.
- DbConnection.ReportsClosed: a pool's closed flag is visible only under the attribute name `closed`, which is the driver's pool attribute. The driver's own source is not part of this model.
- DbConnection.ExecuteQuery: an exception raised inside an `except` handler is not modelled.
- The `params` argument of `execute_query` is not modelled.
- The `client_encoding` default mutates the caller's dict in the source. Here it is a new settings map.
- Case mapping and `isalnum` are ASCII-only. Python's Unicode rules are not modelled, for example `'İ'.lower()`, the Kelvin sign, `'ſ'.upper()`, or non-ASCII letters counting as alphanumeric.
- Text.ParseInt: non-ASCII decimal digits, which Python's `int()` accepts, are not modelled.
- Text.ParseInt: Python's integer string conversion limit (4300 decimal digits by default since CPython 3.11 and in the 3.7-3.10 security releases) is not modelled. `int()` of longer text raises `ValueError`, so `validate_config_value` falls back to the default where `Config.ValidateConfigValue` keeps the value.
- SqlFormatter.NumericAndDateRendering: `str()` of an integer with more than 4300 digits raises `ValueError` under that limit, so `format_value` raises where `SqlFormatter.FormatValue` returns the digits.
- Text.ParseIntOfIntToString: the round trip holds in Python only within the 4300-digit limit; the model has no limit.
- Config.ToInt: text with more than 4300 digits makes `int()` raise `ValueError` in Python; the model reads it. An `int` value is not affected.
- Paths are POSIX: `os.path` is modelled as `posixpath`, with no Windows separators or drive letters.
- Floating-point cells are not modelled.
- Dates carry their `str()` text as given. Date arithmetic and formatting are not modelled.
- The `decimal` argument of `format_value` is not modelled, because the source never uses it.
- How PostgreSQL parses the generated text is not modelled. The round trips are stated against the source's own escaping rules. In particular, a `C` literal with doubled backslashes is not `E`-prefixed.
- `batch_size <= 0` is excluded by a precondition.
- Omitted arguments: `ClampMaxRecords(None)` and `NewReader(path, None)` mean an explicit `None` passed as `max_records`, which gives 30000. Leaving the argument out gives 1000; that case is `NewReaderDefault`. Leaving out `batch_size` gives 1000; that case is `InsertStatementsDefault`. Other defaults (`decimal` of `format_value`, `min_conn`/`max_conn` of the constructor, `params` of `execute_query`) are passed explicitly or not modelled.
- A record missing a field key (`KeyError`) is excluded by a precondition.
- Loading the configuration is not modelled: `configparser`, the environment variable, the PyInstaller path, `get_config_value` and module globals.
- Config values are `str`, `int` or `None`. Other Python types passed to `validate_config_value` are not modelled.
- The controllers, `main.py` and the test scripts are orchestration around the modelled core and are not modelled.

## Findings

| source | as written | input that shows it | evidently intended | confidence | as-written member | corrected member |
|---|---|---|---|---|---|---|
| models/db_connection.py:24-63 | closure is detected, at lines 31 and 62, through an attribute named `_closed`, but the driver's pool records closure in `closed`, so a closed pool is never detected | `close_pool()` followed by `execute_query("SELECT 1")`: ensure-open keeps the closed pool, and `getconn` raises `PoolError`, which escapes `execute_query` | a closed pool is reinitialised by ensure-open, as its docstring says | medium, not executed | DbConnection.ClosedPoolBreaksQueriesAsWritten | DbConnection.ClosedPoolReopensForQueries |

=== FILE: config.dfy ===
/** Validation of configuration values against the fixed rule table, with the
    built-in defaults it falls back to. */
module Config {
  import opened Wrappers
  import opened Text

  /** A configuration value as the reader hands it over: text from the file,
      an integer from `getint`, or None (a missing value or default). */
  datatype ConfigValue = Str(s: string) | Int(i: int) | NoneValue

  /** A validation rule: membership in a list of strings, or an inclusive
      integer range. */
  datatype Rule = OneOf(options: seq<string>) | Range(lo: int, hi: int)

  /** `CONFIG_RULES`. */
  const ConfigRules: map<string, Rule> :=
    map["preview_ext" := OneOf(["txt", "sql"]),
        "max_records" := Range(1, 10000),
        "port" := Range(1, 65535)]

  /** `DEFAULT_CONFIG`, section by section. */
  const DefaultConfig: map<string, map<string, string>> :=
    map["paths" := map["dbf_directory" := "../mockDBF/CANCFFI.DBF", "sql_output" := "../"],
        "features" := map["execute_query" := "false", "preview_mode" := "false",
                          "preview_ext" := "txt", "max_records" := "4000",
                          "target_table_name_active" := "false",
                          "target_table_name" := "test_table"],
        "database" := map["host" := "localhost", "port" := "5432", "database" := "postgres",
                          "user" := "postgres", "password" := "default_password"]]

  /** `DEFAULT_CONFIG['features'].get(key)`: the fallback of every rule, looked
      up in the features section whatever section the key belongs to. */
  function FeatureDefault(key: string): ConfigValue {
    var features := DefaultConfig["features"];
    if key in features then Str(features[key]) else NoneValue
  }

  /** The fallbacks of the three ruled keys: `port` has none, because the
      features section holds no `port` entry (it lives under `database`). */
  lemma FeatureDefaults()
    ensures FeatureDefault("preview_ext") == Str("txt")
    ensures FeatureDefault("max_records") == Str("4000")
    ensures FeatureDefault("port") == NoneValue
  {
    var features := DefaultConfig["features"];
    assert "port" !in features by {
      assert features.Keys == {"execute_query", "preview_mode", "preview_ext", "max_records",
                               "target_table_name_active", "target_table_name"};
    }
  }

  /** Python's `value in options` for a list of strings. */
  predicate InOptions(value: ConfigValue, options: seq<string>) {
    value.Str? && value.s in options
  }

  /** Python's `int(value)`: text is parsed (an unparsable text, which makes
      `int` raise `ValueError`, gives `Success(None)`), an int is itself, and
      None makes `int` raise `TypeError` (`Failure`). */
  function ToInt(value: ConfigValue): (r: Result<Option<int>, string>)
    ensures r.Failure? <==> value.NoneValue?
    ensures value.Int? ==> r == Success(Some(value.i))
    ensures forall n :: value == Str(IntToString(n)) ==> r == Success(Some(n))
  {
    ParseIntOfRendering();
    match value
    case Str(s) => Success(ParseInt(s))
    case Int(i) => Success(Some(i))
    case NoneValue => Failure("TypeError")
  }

  /** What `validate_config_value` does: return a value, or let a
      `TypeError` out (`int(None)` is not caught by `except ValueError`). */
  datatype Validated = Returned(value: ConfigValue) | RaisesTypeError

  /** `validate_config_value(key, value)`. */
  function ValidateConfigValue(key: string, value: ConfigValue): (r: Validated)
    ensures key !in ConfigRules ==> r == Returned(value)
    ensures r.Returned? ==> r.value == value || r.value == FeatureDefault(key)
    ensures r == RaisesTypeError ==> key in ConfigRules && ConfigRules[key].Range? && value.NoneValue?
  {
    if key !in ConfigRules then Returned(value)
    else
      match ConfigRules[key]
      case OneOf(options) => if !InOptions(value, options) then Returned(FeatureDefault(key)) else Returned(value)
      case Range(lo, hi) =>
        match ToInt(value)
        case Failure(_) => RaisesTypeError
        case Success(None) => Returned(FeatureDefault(key))
        case Success(Some(n)) => if !(lo <= n <= hi) then Returned(FeatureDefault(key)) else Returned(value)
  }

  /** Which values `preview_ext` keeps: exactly the strings `txt` and `sql`,
      compared case-sensitively; everything else becomes `txt`. */
  lemma PreviewExtRule(value: ConfigValue)
    ensures ValidateConfigValue("preview_ext", value) == Returned(value) <==> value in {Str("txt"), Str("sql")}
    ensures value !in {Str("txt"), Str("sql")} ==> ValidateConfigValue("preview_ext", value) == Returned(Str("txt"))
  {
    FeatureDefaults();
    if value.Str? && value.s in ["txt", "sql"] {
      assert value.s == "txt" || value.s == "sql";
    }
  }

  /** For a range-ruled key, a value whose integer reading lies in the
      inclusive range is returned as given (text stays text), not as the
      integer. */
  lemma InRangeKeepsOriginal(key: string, value: ConfigValue, n: int)
    requires key in ConfigRules && ConfigRules[key].Range?
    requires ToInt(value) == Success(Some(n))
    requires ConfigRules[key].lo <= n <= ConfigRules[key].hi
    ensures ValidateConfigValue(key, value) == Returned(value)
  {
  }

  /** Both ends of each range are accepted and the integers just outside are
      not. */
  lemma RangeBoundsInclusive()
    ensures ValidateConfigValue("max_records", Int(1)) == Returned(Int(1))
    ensures ValidateConfigValue("max_records", Int(10000)) == Returned(Int(10000))
    ensures ValidateConfigValue("max_records", Int(0)) != Returned(Int(0))
    ensures ValidateConfigValue("max_records", Int(10001)) != Returned(Int(10001))
    ensures ValidateConfigValue("port", Int(1)) == Returned(Int(1))
    ensures ValidateConfigValue("port", Int(65535)) == Returned(Int(65535))
    ensures ValidateConfigValue("port", Int(0)) == Returned(NoneValue)
    ensures ValidateConfigValue("port", Int(65536)) == Returned(NoneValue)
  {
    MaxRecordsFallback(Int(0));
    MaxRecordsFallback(Int(10001));
    PortFallback(Int(0));
    PortFallback(Int(65536));
  }

  /** `max_records` out of range, or not an integer at all, falls back to the
      text `'4000'` from the features defaults. */
  lemma MaxRecordsFallback(value: ConfigValue)
    requires !value.NoneValue?
    requires ToInt(value) == Success(None) || (ToInt(value).Success? && ToInt(value).value.Some?
               && !(1 <= ToInt(value).value.value <= 10000))
    ensures ValidateConfigValue("max_records", value) == Returned(Str("4000"))
  {
    assert ConfigRules["max_records"] == Range(1, 10000);
    FeatureDefaults();
  }

  /** `port` out of range, or not an integer, falls back to None. */
  lemma PortFallback(value: ConfigValue)
    requires !value.NoneValue?
    requires ToInt(value) == Success(None) || (ToInt(value).Success? && ToInt(value).value.Some?
               && !(1 <= ToInt(value).value.value <= 65535))
    ensures ValidateConfigValue("port", value) == Returned(NoneValue)
  {
    assert ConfigRules["port"] == Range(1, 65535);
    FeatureDefaults();
  }

  /** A None value for a range-ruled key escapes as a `TypeError`. */
  lemma NoneForRangeRaises(key: string)
    requires key in ConfigRules && ConfigRules[key].Range?
    ensures ValidateConfigValue(key, NoneValue) == RaisesTypeError
  {
  }
}

=== FILE: db_connection.dfy ===
/** The database connection object: a process-wide singleton holding a
    connection pool, the lifecycle of that pool (initialise, ensure open,
    close), the classification of connection failures, scoped checkout and
    release of a connection, and how `execute_query` maps a statement's
    outcome to its return value. The driver is abstract: creating a pool,
    checking out a connection, executing, fetching and committing are given
    as outcomes, not performed. */
module DbConnection {
  import opened Wrappers
  import opened Text
  import opened Schema

  // ---------------------------------------------------------------------------
  // State
  // ---------------------------------------------------------------------------

  /** A driver connection pool; `closed` is the flag the driver sets in `closeall`. */
  datatype Pool = Pool(id: nat, closed: bool)

  /** The singleton's attributes: connection settings, pool sizes and the pool. */
  datatype Db = Db(config: map<string, string>, minConn: int, maxConn: int, pool: Option<Pool>)

  /** What constructing a driver pool does: it succeeds, raises a driver error
      carrying a message, or raises some other exception. */
  datatype Connect = Connected(id: nat) | DriverFailure(message: string) | OtherFailure(message: string)

  /** The four diagnoses of a driver failure. */
  datatype FailureKind = AuthenticationFailed | DatabaseMissing | RoleMissing | GenericFailure

  /** What `_initialize_pool` reports (prints). */
  datatype InitReport =
    | AlreadyOpen
    | Initialized
    | DriverError(kind: FailureKind, message: string)
    | UnexpectedError(message: string)

  // ---------------------------------------------------------------------------
  // Failure classification
  // ---------------------------------------------------------------------------

  /** The diagnosis of a driver failure message, on its lower-cased text, in a
      fixed order: password failure, then a missing database, then a missing
      role, else generic. */
  function Classify(message: string): (k: FailureKind)
    ensures k == AuthenticationFailed <==> Contains(Lower(message), "password authentication failed")
    ensures k == DatabaseMissing ==> Contains(Lower(message), "database") && Contains(Lower(message), "does not exist")
    ensures k == RoleMissing ==> Contains(Lower(message), "role") && Contains(Lower(message), "does not exist")
  {
    var m := Lower(message);
    if Contains(m, "password authentication failed") then AuthenticationFailed
    else if Contains(m, "database") && Contains(m, "does not exist") then DatabaseMissing
    else if Contains(m, "role") && Contains(m, "does not exist") then RoleMissing
    else GenericFailure
  }

  /** Each diagnosis in terms of what the lower-cased message contains; an
      earlier test wins, so a message naming both a database and a role that
      do not exist is a missing database. */
  lemma ClassifyPrecedence(message: string)
    ensures var m := Lower(message);
            var auth := Contains(m, "password authentication failed");
            var missing := Contains(m, "does not exist");
            && (Classify(message) == AuthenticationFailed <==> auth)
            && (Classify(message) == DatabaseMissing <==> !auth && missing && Contains(m, "database"))
            && (Classify(message) == RoleMissing <==>
                  !auth && missing && !Contains(m, "database") && Contains(m, "role"))
            && (Classify(message) == GenericFailure <==>
                  !auth && (!missing || (!Contains(m, "database") && !Contains(m, "role"))))
  {
  }

  /** The diagnosis ignores letter case. */
  lemma ClassifyIgnoresCase(message: string)
    ensures Classify(Upper(message)) == Classify(message)
    ensures Classify(Lower(message)) == Classify(message)
  {
    LowerOfUpper(message);
    LowerIdempotent(message);
  }

  lemma LowerOfUpper(s: string)
    ensures Lower(Upper(s)) == Lower(s)
  {
  }

  // ---------------------------------------------------------------------------
  // Pool lifecycle
  // ---------------------------------------------------------------------------

  /** `hasattr(pool, attribute) and getattr(pool, attribute)` for the driver's
      pool, whose only attribute recording closure is `closed`. */
  predicate ReportsClosed(p: Pool, attribute: string) {
    attribute == "closed" && p.closed
  }

  /** `_initialize_pool`, with the name of the attribute it probes for
      closure as a parameter. An open pool is kept; otherwise a new pool is
      created, and any failure is reported and leaves no pool. */
  function InitializePoolProbing(db: Db, outcome: Connect, attribute: string): (r: (Db, InitReport))
    ensures r.0.config == db.config && r.0.minConn == db.minConn && r.0.maxConn == db.maxConn
    ensures r.1 == AlreadyOpen <==> db.pool.Some? && !ReportsClosed(db.pool.value, attribute)
    ensures r.1 == AlreadyOpen ==> r.0 == db
    ensures r.1 == Initialized <==> r.1 != AlreadyOpen && outcome.Connected?
    ensures r.1 == Initialized ==> r.0.pool == Some(Pool(outcome.id, false))
    ensures r.1 != AlreadyOpen && !outcome.Connected? ==> r.0.pool.None?
  {
    if db.pool.Some? && !ReportsClosed(db.pool.value, attribute) then (db, AlreadyOpen)
    else
      match outcome
      case Connected(id) => (db.(pool := Some(Pool(id, false))), Initialized)
      case DriverFailure(msg) => (db.(pool := None), DriverError(Classify(msg), msg))
      case OtherFailure(msg) => (db.(pool := None), UnexpectedError(msg))
  }

  /** `ensure_pool_is_open`: initialise when there is no pool or the pool
      reports itself closed; otherwise do nothing. */
  function EnsurePoolIsOpenProbing(db: Db, outcome: Connect, attribute: string): (r: (Db, InitReport))
  {
    if db.pool.None? || ReportsClosed(db.pool.value, attribute) then
      InitializePoolProbing(db, outcome, attribute)
    else (db, AlreadyOpen)
  }

  /** `ensure_pool_is_open` probing the attribute the driver's pool has:
      afterwards there is no pool or an open one. */
  function EnsurePoolIsOpen(db: Db, outcome: Connect): (r: (Db, InitReport))
    ensures r.0.pool.None? || !r.0.pool.value.closed
    ensures r.0.config == db.config && r.0.minConn == db.minConn && r.0.maxConn == db.maxConn
  {
    EnsurePoolIsOpenProbing(db, outcome, "closed")
  }

  /** `ensure_pool_is_open` as written: it probes `_closed`, which the
      driver's pool does not have, so any existing pool, closed or not, is
      kept. */
  function EnsurePoolIsOpenAsWritten(db: Db, outcome: Connect): (r: (Db, InitReport))
    ensures db.pool.Some? ==> r == (db, AlreadyOpen)
    ensures db.pool.None? ==> (r.0.pool.Some? <==> outcome.Connected?)
  {
    EnsurePoolIsOpenProbing(db, outcome, "_closed")
  }

  /** After ensure-open the pool is either absent (initialisation failed) or
      open; an open pool is left untouched, and a missing or closed one is
      replaced exactly when the driver connects. */
  lemma EnsurePoolIsOpenEffect(db: Db, outcome: Connect)
    ensures var (d, rep) := EnsurePoolIsOpen(db, outcome);
            && (d.pool.None? || !d.pool.value.closed)
            && (db.pool.Some? && !db.pool.value.closed ==> d == db && rep == AlreadyOpen)
            && ((db.pool.None? || db.pool.value.closed) ==>
                  (d.pool.Some? <==> outcome.Connected?))
  {
  }

  /** Ensure-open is idempotent: once it has left an open pool, a second call
      changes nothing whatever the driver would do. */
  lemma EnsurePoolIsOpenIdempotent(db: Db, first: Connect, second: Connect)
    requires EnsurePoolIsOpen(db, first).0.pool.Some?
    ensures var d := EnsurePoolIsOpen(db, first).0;
            EnsurePoolIsOpen(d, second) == (d, AlreadyOpen)
  {
    EnsurePoolIsOpenEffect(db, first);
  }

  /** `close_pool`: closing an existing pool marks it closed; with no pool it
      does nothing. The driver refuses to close a pool twice (`PoolError`). */
  function ClosePool(db: Db): (r: Result<Db, ErrorClass>)
    ensures db.pool.None? ==> r == Success(db)
    ensures db.pool.Some? && !db.pool.value.closed ==>
              r == Success(db.(pool := Some(db.pool.value.(closed := true))))
    ensures db.pool.Some? && db.pool.value.closed ==> r == Failure(PoolError)
  {
    match db.pool
    case None => Success(db)
    case Some(p) => if p.closed then Failure(PoolError) else Success(db.(pool := Some(p.(closed := true))))
  }

  /** After `close_pool`, the next ensure-open creates a fresh pool when the
      driver connects, and leaves no pool when it does not. */
  lemma CloseThenEnsureReopens(db: Db, outcome: Connect)
    requires db.pool.Some? && !db.pool.value.closed
    ensures var d := ClosePool(db).value;
            var (e, rep) := EnsurePoolIsOpen(d, outcome);
            && (outcome.Connected? ==> e.pool == Some(Pool(outcome.id, false)) && rep == Initialized)
            && (!outcome.Connected? ==> e.pool.None?)
  {
  }

  /** As written, a closed pool is never reinitialised: ensure-open returns it
      unchanged, still closed, whatever the driver would do. */
  lemma CloseThenEnsureAsWrittenKeepsClosedPool(db: Db, outcome: Connect)
    requires db.pool.Some? && !db.pool.value.closed
    ensures var d := ClosePool(db).value;
            var (e, rep) := EnsurePoolIsOpenAsWritten(d, outcome);
            e == d && rep == AlreadyOpen && e.pool.Some? && e.pool.value.closed
  {
  }

  // ---------------------------------------------------------------------------
  // The singleton
  // ---------------------------------------------------------------------------

  /** `DBConnection(db_config, min_conn, max_conn)`: the first call builds the
      instance, adding `client_encoding = UTF8` to the settings when absent,
      and initialises its pool; every later call returns that instance and
      ignores its arguments. `registry` is the class's `_instance`. */
  function New(registry: Option<Db>, config: map<string, string>, minConn: int, maxConn: int,
               outcome: Connect): (r: (Option<Db>, Db, Option<InitReport>))
    ensures r.0 == Some(r.1)
  {
    if registry.Some? then (registry, registry.value, None)
    else
      var settings := if "client_encoding" in config then config else config["client_encoding" := "UTF8"];
      var (db, rep) := InitializePoolProbing(Db(settings, minConn, maxConn, None), outcome, "closed");
      (Some(db), db, Some(rep))
  }

  /** A second construction returns the first instance, unchanged, and does
      not touch the pool. */
  lemma NewIsSingleton(config1: map<string, string>, config2: map<string, string>,
                       min1: int, max1: int, min2: int, max2: int, o1: Connect, o2: Connect)
    ensures var (reg, first, _) := New(None, config1, min1, max1, o1);
            var (reg2, second, rep) := New(reg, config2, min2, max2, o2);
            second == first && reg2 == reg && rep.None?
  {
  }

  /** The first construction keeps the given settings, supplies
      `client_encoding = UTF8` only when it is missing, and leaves a pool
      exactly when the driver connects; a failed connection raises nothing. */
  lemma NewSettings(config: map<string, string>, minConn: int, maxConn: int, outcome: Connect)
    ensures var (_, db, rep) := New(None, config, minConn, maxConn, outcome);
            && "client_encoding" in db.config
            && ("client_encoding" !in config ==> db.config["client_encoding"] == "UTF8")
            && (forall k :: k in config ==> k in db.config && db.config[k] == config[k])
            && (forall k :: k in db.config && k != "client_encoding" ==> k in config)
            && db.minConn == minConn && db.maxConn == maxConn
            && rep.Some? && rep.value != AlreadyOpen
            && (db.pool.Some? <==> outcome.Connected?)
  {
  }

  // ---------------------------------------------------------------------------
  // Errors raised while executing
  // ---------------------------------------------------------------------------

  /** The exception a statement (or its fetch or commit) can raise. The
      driver's hierarchy: DuplicateTable is a ProgrammingError; every class
      but `NonDriver` is a driver `Error`. */
  datatype ErrorClass =
    | DuplicateTable
    | UniqueViolation
    | OtherProgrammingError
    | OperationalError
    | PoolError
    | OtherDriverError
    | NonDriver

  /** The `except` clauses of `execute_query`, in source order. */
  datatype Handler = OnDuplicateTable | OnUniqueViolation | OnProgrammingError | OnDriverError | OnException

  const HandlerOrder: seq<Handler> :=
    [OnDuplicateTable, OnUniqueViolation, OnProgrammingError, OnDriverError, OnException]

  /** Whether clause `h` catches class `c` (`isinstance`). */
  predicate Catches(h: Handler, c: ErrorClass) {
    match h
    case OnDuplicateTable => c == DuplicateTable
    case OnUniqueViolation => c == UniqueViolation
    case OnProgrammingError => c == DuplicateTable || c == OtherProgrammingError
    case OnDriverError => c != NonDriver
    case OnException => true
  }

  /** The clause that handles `c`: the source's chain of `except` tests. */
  function HandlerFor(c: ErrorClass): Handler {
    if c == DuplicateTable then OnDuplicateTable
    else if c == UniqueViolation then OnUniqueViolation
    else if c == OtherProgrammingError then OnProgrammingError
    else if c != NonDriver then OnDriverError
    else OnException
  }

  /** The handler is the first clause, in source order, that catches the
      class: every class is caught, and a DuplicateTable is handled as such
      although it is also a ProgrammingError. */
  lemma HandlerIsFirstMatch(c: ErrorClass)
    ensures exists i :: 0 <= i < |HandlerOrder| && HandlerOrder[i] == HandlerFor(c)
              && Catches(HandlerOrder[i], c)
              && forall j :: 0 <= j < i ==> !Catches(HandlerOrder[j], c)
  {
    var i := if c == DuplicateTable then 0 else if c == UniqueViolation then 1
             else if c == OtherProgrammingError then 2 else if c != NonDriver then 3 else 4;
    assert HandlerOrder[i] == HandlerFor(c);
  }

  // ---------------------------------------------------------------------------
  // Checkout and execution
  // ---------------------------------------------------------------------------

  /** What the pool's `getconn` does on an open pool. */
  datatype Checkout = Lent(conn: nat) | CheckoutOperationalError | PoolExhausted

  /** Why `get_connection` gives no connection: a `ConnectionError` because
      there is no pool or because checkout failed in the driver, or an
      exception it lets through. */
  datatype Refusal = NoPool | CheckoutFailed | Escapes(error: ErrorClass)

  /** `get_connection` once ensure-open has run: no pool raises
      `ConnectionError`; a closed pool refuses with `PoolError`; a driver
      operational error becomes `ConnectionError`. */
  function GetConnectionAfterEnsure(d: Db, checkout: Checkout): (r: Result<nat, Refusal>)
    ensures r.Success? <==> d.pool.Some? && !d.pool.value.closed && checkout.Lent?
    ensures d.pool.None? ==> r == Failure(NoPool)
  {
    match d.pool
    case None => Failure(NoPool)
    case Some(p) =>
      if p.closed then Failure(Escapes(PoolError))
      else
        match checkout
        case Lent(c) => Success(c)
        case CheckoutOperationalError => Failure(CheckoutFailed)
        case PoolExhausted => Failure(Escapes(PoolError))
  }

  /** What executing (and, for a SELECT, fetching) did. */
  datatype Execution = Executed(rows: seq<seq<Value>>, rowcount: int) | ExecutionFailed(error: ErrorClass)

  /** Calls made on the pool and connection, in order. */
  datatype Event = CheckedOut | Commit | Rollback | Released

  /** Why `execute_query` returned `None`. */
  datatype NoneReason = Handled(handler: Handler) | ConnectionUnavailable

  /** `execute_query`'s outcome: rows, a row count, `None`, or an exception
      that escapes it. */
  datatype QueryResult =
    | Rows(rows: seq<seq<Value>>)
    | RowCount(n: int)
    | ReturnsNone(why: NoneReason)
    | Raises(error: ErrorClass)

  /** A statement is a query when its stripped, upper-cased text starts with
      `SELECT`: only the first six characters after leading whitespace
      matter, compared without regard to case. */
  predicate IsSelect(query: string)
    ensures IsSelect(query) <==> |Strip(query)| >= 6 && Upper(Strip(query)[..6]) == "SELECT"
  {
    var t := Strip(query);
    assert |t| >= 6 ==> Upper(t)[..6] == Upper(t[..6]);
    "SELECT" <= Upper(t)
  }

  /** Leading blanks and case do not matter to the query test: blanks, then
      `select` in any mix of case, then anything, is a query. */
  lemma SelectAfterBlanks(blank: string, word: string, rest: string)
    requires forall i :: 0 <= i < |blank| ==> IsSpace(blank[i])
    requires |word| == 6 && Upper(word) == "SELECT"
    ensures IsSelect(blank + word + rest)
  {
    assert Upper(word)[0] == 'S' && Upper(word)[5] == 'T';
    LetterIsNotSpace(word[0]);
    LetterIsNotSpace(word[5]);
    var x := word + rest;
    assert blank + word + rest == blank + x;
    assert x[..6] == word && x[0] == word[0] && x[5] == word[5];
    StripLeftBlanks(blank, x);
    StripRightKeepsSix(x);
    assert Strip(blank + x) == StripRight(x);
  }

  /** Stripping trailing blanks keeps the first six characters when the
      sixth is not blank. */
  lemma StripRightKeepsSix(x: string)
    requires |x| >= 6 && !IsSpace(x[5])
    ensures |StripRight(x)| >= 6 && StripRight(x)[..6] == x[..6]
  {
    StripRightKeeps(x, 5);
  }

  /** A character that upper-cases to a letter is not whitespace. */
  lemma LetterIsNotSpace(c: char)
    requires IsUpper(UpperChar(c))
    ensures !IsSpace(c)
  {
  }

  /** Stripping trailing whitespace keeps every character up to the last
      non-blank one. */
  lemma StripRightKeeps(x: string, k: nat)
    requires k < |x| && !IsSpace(x[k])
    ensures |StripRight(x)| > k
  {
  }

  /** Whitespace in front of a non-blank text is stripped away exactly. */
  lemma {:induction false} StripLeftBlanks(blank: string, x: string)
    requires forall i :: 0 <= i < |blank| ==> IsSpace(blank[i])
    requires |x| > 0 && !IsSpace(x[0])
    ensures StripLeft(blank + x) == x
  {
    if |blank| == 0 {
      assert blank + x == x;
    } else {
      assert (blank + x)[1..] == blank[1..] + x;
      StripLeftBlanks(blank[1..], x);
    }
  }

  /** A statement whose first character is neither blank nor `s`/`S` is not
      a query; a statement opening with a `WITH` clause, for one, is
      committed and answered with its row count. */
  lemma NotSelectByFirst(q: string)
    requires |q| > 0 && !IsSpace(q[0]) && UpperChar(q[0]) != 'S'
    ensures !IsSelect(q)
  {
    var t := Strip(q);
    assert StripLeft(q) == q;
    if |t| >= 6 {
      assert t[0] == q[0];
      assert Upper(t[..6])[0] == UpperChar(t[0]);
    }
  }

  /** The body run on a checked-out connection: a query returns its rows and
      does not commit; anything else commits and returns the row count; any
      exception is rolled back and handled. */
  function RunOnConnection(query: string, exec: Execution, commit: Option<ErrorClass>): (r: (QueryResult, seq<Event>))
    ensures !r.0.Raises? && CheckedOut !in r.1 && Released !in r.1
    ensures r.0.Rows? ==> IsSelect(query) && r.1 == []
    ensures r.0.RowCount? ==> !IsSelect(query) && r.1 == [Commit]
    ensures IsSelect(query) ==> Commit !in r.1
    ensures Rollback in r.1 <==> r.0.ReturnsNone?
  {
    match exec
    case ExecutionFailed(e) => (ReturnsNone(Handled(HandlerFor(e))), [Rollback])
    case Executed(rows, count) =>
      if IsSelect(query) then (Rows(rows), [])
      else if commit.None? then (RowCount(count), [Commit])
      else (ReturnsNone(Handled(HandlerFor(commit.value))), [Commit, Rollback])
  }

  /** `execute_query` once ensure-open has run: check out, open a cursor,
      run, release. `cursor` is the exception `conn.cursor()` raises, if
      any. That call sits outside the inner `try`, so its exception reaches
      `get_connection`, which turns an `OperationalError` into a
      `ConnectionError` (and so `None`) and lets any other class through;
      either way the connection is released. */
  function ExecuteAfterEnsure(d: Db, query: string, checkout: Checkout, cursor: Option<ErrorClass>,
                              exec: Execution, commit: Option<ErrorClass>): (r: (QueryResult, seq<Event>))
    ensures |r.1| > 0 <==> GetConnectionAfterEnsure(d, checkout).Success?
    ensures r.0.Raises? ==>
              || (r.1 == [] && r.0.error == PoolError)
              || (cursor == Some(r.0.error) && r.0.error != OperationalError && r.1 == [CheckedOut, Released])
  {
    match GetConnectionAfterEnsure(d, checkout)
    case Failure(NoPool) => (ReturnsNone(ConnectionUnavailable), [])
    case Failure(CheckoutFailed) => (ReturnsNone(ConnectionUnavailable), [])
    case Failure(Escapes(e)) => (Raises(e), [])
    case Success(_) =>
      match cursor
      case Some(OperationalError) => (ReturnsNone(ConnectionUnavailable), [CheckedOut, Released])
      case Some(e) => (Raises(e), [CheckedOut, Released])
      case None =>
        var (res, calls) := RunOnConnection(query, exec, commit);
        (res, [CheckedOut] + calls + [Released])
  }

  /** `execute_query(query)`: ensure the pool is open, then check out, run
      and release. The pool state after the call is part of the result. */
  function ExecuteQuery(db: Db, outcome: Connect, query: string, checkout: Checkout,
                        cursor: Option<ErrorClass>, exec: Execution,
                        commit: Option<ErrorClass>): (r: (Db, QueryResult, seq<Event>))
    ensures r.0.pool.None? || !r.0.pool.value.closed
    ensures |r.2| > 0 <==> r.0.pool.Some? && checkout.Lent?
  {
    var (d, _) := EnsurePoolIsOpen(db, outcome);
    var (res, events) := ExecuteAfterEnsure(d, query, checkout, cursor, exec, commit);
    (d, res, events)
  }

  /** `execute_query` as written, with its ensure-open probing `_closed`. */
  function ExecuteQueryAsWritten(db: Db, outcome: Connect, query: string, checkout: Checkout,
                                 cursor: Option<ErrorClass>, exec: Execution,
                                 commit: Option<ErrorClass>): (r: (Db, QueryResult, seq<Event>))
    ensures db.pool.Some? && db.pool.value.closed ==> r == (db, Raises(PoolError), [])
  {
    var (d, _) := EnsurePoolIsOpenAsWritten(db, outcome);
    var (res, events) := ExecuteAfterEnsure(d, query, checkout, cursor, exec, commit);
    (d, res, events)
  }

  function Count(events: seq<Event>, e: Event): nat {
    if |events| == 0 then 0 else (if events[0] == e then 1 else 0) + Count(events[1..], e)
  }

  lemma CountAppend(a: seq<Event>, b: seq<Event>, e: Event)
    ensures Count(a + b, e) == Count(a, e) + Count(b, e)
  {
    if |a| == 0 {
      assert a + b == b;
    } else {
      assert (a + b)[1..] == a[1..] + b;
    }
  }

  /** Scoped checkout: a connection is released exactly when one was checked
      out, once, as the last call; nothing is committed for a query; a
      rollback happens exactly when a handled exception makes the result
      `None`; a row count means the commit went through. */
  lemma ExecutionProtocol(d: Db, query: string, checkout: Checkout, cursor: Option<ErrorClass>,
                          exec: Execution, commit: Option<ErrorClass>)
    ensures var (res, ev) := ExecuteAfterEnsure(d, query, checkout, cursor, exec, commit);
            && Count(ev, Released) == Count(ev, CheckedOut) <= 1
            && (Count(ev, CheckedOut) == 1 ==> ev[0] == CheckedOut && ev[|ev| - 1] == Released)
            && (Count(ev, CheckedOut) == 1 <==> GetConnectionAfterEnsure(d, checkout).Success?)
            && (IsSelect(query) ==> Count(ev, Commit) == 0)
            && (Count(ev, Rollback) == 1 <==> res.ReturnsNone? && res.why.Handled?)
            && Count(ev, Rollback) <= 1
            && (res.RowCount? ==> !IsSelect(query) && Count(ev, Commit) == 1)
            && (res.Rows? ==> IsSelect(query))
  {
    if GetConnectionAfterEnsure(d, checkout).Success? {
      if cursor.Some? {
        assert [CheckedOut, Released] == [CheckedOut] + [] + [Released];
        Bracketed([]);
      } else {
        var (r, calls) := RunOnConnection(query, exec, commit);
        RunOnConnectionCalls(query, exec, commit);
        Bracketed(calls);
      }
    }
  }

  /** The calls the body makes on its connection. */
  lemma RunOnConnectionCalls(query: string, exec: Execution, commit: Option<ErrorClass>)
    ensures var (res, calls) := RunOnConnection(query, exec, commit);
            && Count(calls, CheckedOut) == 0 && Count(calls, Released) == 0
            && Count(calls, Commit) <= 1 && Count(calls, Rollback) <= 1
            && (IsSelect(query) ==> Count(calls, Commit) == 0)
            && (Count(calls, Rollback) == 1 <==> res.ReturnsNone? && res.why.Handled?)
            && (res.RowCount? ==> !IsSelect(query) && Count(calls, Commit) == 1)
            && (res.Rows? ==> IsSelect(query))
  {
    assert [Commit, Rollback][1..] == [Rollback];
  }

  /** Counts across the checkout/release bracket. */
  lemma Bracketed(calls: seq<Event>)
    requires Count(calls, CheckedOut) == 0 && Count(calls, Released) == 0
    ensures var ev := [CheckedOut] + calls + [Released];
            && Count(ev, CheckedOut) == 1 && Count(ev, Released) == 1
            && ev[0] == CheckedOut && ev[|ev| - 1] == Released
            && Count(ev, Commit) == Count(calls, Commit)
            && Count(ev, Rollback) == Count(calls, Rollback)
  {
    var ev := [CheckedOut] + calls + [Released];
    CountAppend([CheckedOut] + calls, [Released], CheckedOut);
    CountAppend([CheckedOut] + calls, [Released], Released);
    CountAppend([CheckedOut] + calls, [Released], Commit);
    CountAppend([CheckedOut] + calls, [Released], Rollback);
    CountAppend([CheckedOut], calls, CheckedOut);
    CountAppend([CheckedOut], calls, Released);
    CountAppend([CheckedOut], calls, Commit);
    CountAppend([CheckedOut], calls, Rollback);
  }

  /** Every exception raised by executing, fetching or committing is handled:
      it is rolled back and `None` is returned, by the first matching clause. */
  lemma ExecutionErrorsReturnNone(d: Db, query: string, checkout: Checkout, e: ErrorClass,
                                  rows: seq<seq<Value>>, count: int)
    requires GetConnectionAfterEnsure(d, checkout).Success?
    ensures ExecuteAfterEnsure(d, query, checkout, None, ExecutionFailed(e), None).0
            == ReturnsNone(Handled(HandlerFor(e)))
    ensures !IsSelect(query) ==>
              ExecuteAfterEnsure(d, query, checkout, None, Executed(rows, count), Some(e)).0
              == ReturnsNone(Handled(HandlerFor(e)))
  {
  }

  /** A query returns its fetched rows; any other statement that commits
      returns its row count. */
  lemma ExecutionSuccess(d: Db, query: string, checkout: Checkout, rows: seq<seq<Value>>, count: int)
    requires GetConnectionAfterEnsure(d, checkout).Success?
    ensures IsSelect(query) ==>
              ExecuteAfterEnsure(d, query, checkout, None, Executed(rows, count), None).0 == Rows(rows)
    ensures !IsSelect(query) ==>
              ExecuteAfterEnsure(d, query, checkout, None, Executed(rows, count), None).0 == RowCount(count)
  {
  }

  /** With no pool to lend from, or a checkout the driver fails, the
      `ConnectionError` is caught and `None` returned, with no call on any
      connection. */
  lemma ConnectionErrorsReturnNone(db: Db, outcome: Connect, query: string, checkout: Checkout,
                                   cursor: Option<ErrorClass>, exec: Execution, commit: Option<ErrorClass>)
    requires !outcome.Connected? || checkout == CheckoutOperationalError
    requires db.pool.None? || db.pool.value.closed || checkout == CheckoutOperationalError
    ensures var (_, res, ev) := ExecuteQuery(db, outcome, query, checkout, cursor, exec, commit);
            res == ReturnsNone(ConnectionUnavailable) && ev == []
  {
  }

  /** An exception from opening the cursor is not seen by the `except`
      clauses of `execute_query`: the connection is released without a
      rollback, an `OperationalError` becomes `None` through
      `ConnectionError`, and any other class escapes the call. */
  lemma CursorFailure(d: Db, query: string, checkout: Checkout, e: ErrorClass,
                      exec: Execution, commit: Option<ErrorClass>)
    requires GetConnectionAfterEnsure(d, checkout).Success?
    ensures var (res, ev) := ExecuteAfterEnsure(d, query, checkout, Some(e), exec, commit);
            && ev == [CheckedOut, Released]
            && (e == OperationalError ==> res == ReturnsNone(ConnectionUnavailable))
            && (e != OperationalError ==> res == Raises(e))
  {
  }

  /** With ensure-open probing the right attribute, an exception escapes
      `execute_query` only as an exhausted pool's `PoolError` or as a
      non-operational error from opening the cursor. */
  lemma OnlyExhaustionEscapes(db: Db, outcome: Connect, query: string, checkout: Checkout,
                              cursor: Option<ErrorClass>, exec: Execution, commit: Option<ErrorClass>)
    ensures var (_, res, _) := ExecuteQuery(db, outcome, query, checkout, cursor, exec, commit);
            res.Raises? ==>
              || (res.error == PoolError && checkout == PoolExhausted)
              || (cursor == Some(res.error) && res.error != OperationalError)
  {
    EnsurePoolIsOpenEffect(db, outcome);
  }

  /** As written, once the pool has been closed every later `execute_query`
      raises `PoolError` out of the call, whatever the driver would do: the
      closed pool is never replaced. */
  lemma ClosedPoolBreaksQueriesAsWritten(db: Db, outcome: Connect, query: string, checkout: Checkout,
                                         cursor: Option<ErrorClass>, exec: Execution, commit: Option<ErrorClass>)
    requires db.pool.Some? && !db.pool.value.closed
    ensures var d := ClosePool(db).value;
            ExecuteQueryAsWritten(d, outcome, query, checkout, cursor, exec, commit).1 == Raises(PoolError)
  {
    CloseThenEnsureAsWrittenKeepsClosedPool(db, outcome);
  }

  /** With the corrected probe, a query after `close_pool` runs on a fresh
      pool when the driver connects. */
  lemma ClosedPoolReopensForQueries(db: Db, id: nat, query: string, c: nat,
                                    cursor: Option<ErrorClass>, exec: Execution, commit: Option<ErrorClass>)
    requires db.pool.Some? && !db.pool.value.closed
    ensures var d := ClosePool(db).value;
            var (e, res, ev) := ExecuteQuery(d, Connected(id), query, Lent(c), cursor, exec, commit);
            && e.pool == Some(Pool(id, false)) && |ev| > 0 && ev[0] == CheckedOut
            && (res.Raises? ==> cursor == Some(res.error))
  {
    CloseThenEnsureReopens(db, Connected(id));
  }
}

=== FILE: dbf_reader.dfy ===
/** The table reader's own logic, with the DBF file abstracted to the list of
    its records and its field descriptors: the record cap chosen at
    construction, the windows `get_N_records`, `get_last_n_records` and
    `get_records_with_fields` cut from the record list, the descriptors of
    `get_field_info`, and the table name derived from the file path. */
module DbfReader {
  import opened Wrappers
  import opened Text
  import opened Schema
  import opened SqlFormatter

  /** The cap on records held in memory. */
  const RecordCeiling: int := 30000

  /** A reader: the file path and the record cap fixed at construction. */
  datatype Reader = Reader(path: string, maxRecords: int)

  /** A field as the DBF library describes it; `decimal` is absent on some
      field objects. */
  datatype DbfField = DbfField(name: string, typeCode: string, length: int, decimal: Option<int>)

  // ---------------------------------------------------------------------------
  // Construction
  // ---------------------------------------------------------------------------

  /** `max_records if max_records and max_records < 30000 else 30000`:
      a missing or zero cap, or one at or above the ceiling, becomes the
      ceiling; any other value, negatives included, is kept. */
  function ClampMaxRecords(m: Option<int>): (r: int)
    ensures r <= RecordCeiling && r != 0
    ensures r == RecordCeiling || (m.Some? && r == m.value)
  {
    if m.Some? && m.value != 0 && m.value < RecordCeiling then m.value else RecordCeiling
  }

  /** The cap used when the constructor is called without one. */
  const DefaultMaxRecords: int := 1000

  /** The constructor (`DBFReader(file_path, max_records)`) called with a cap,
      where `None` is an explicit Python `None`; the memo-file probe it also
      runs is file-system work and is not modelled. */
  function NewReader(path: string, maxRecords: Option<int>): (r: Reader)
    ensures r.path == path && r.maxRecords <= RecordCeiling && r.maxRecords != 0
    ensures maxRecords.Some? && 0 < maxRecords.value < RecordCeiling ==> r.maxRecords == maxRecords.value
  {
    Reader(path, ClampMaxRecords(maxRecords))
  }

  /** `DBFReader(file_path)` with the cap left out: the default of 1000 is
      below the ceiling and is kept. */
  function NewReaderDefault(path: string): (r: Reader)
    ensures r == NewReader(path, Some(DefaultMaxRecords))
    ensures r.path == path && r.maxRecords == 1000
  {
    NewReader(path, Some(DefaultMaxRecords))
  }

  /** Which caps are kept and which become the ceiling. */
  lemma ClampCases(m: Option<int>)
    ensures m.None? ==> ClampMaxRecords(m) == RecordCeiling
    ensures m.Some? ==>
              (ClampMaxRecords(m) == m.value <==> m.value != 0 && m.value <= RecordCeiling)
    ensures m.Some? && (m.value == 0 || m.value >= RecordCeiling) ==> ClampMaxRecords(m) == RecordCeiling
  {
  }

  // ---------------------------------------------------------------------------
  // Python slices
  // ---------------------------------------------------------------------------

  /** Python's `s[:k]`: a negative `k` counts from the end, and both ends are
      clamped to the list. */
  function Take<T>(s: seq<T>, k: int): (r: seq<T>)
    ensures r <= s
  {
    if k >= 0 then s[..if k <= |s| then k else |s|]
    else s[..if |s| + k >= 0 then |s| + k else 0]
  }

  /** Python's `s[k:]`, with the same conventions. */
  function Drop<T>(s: seq<T>, k: int): (r: seq<T>)
    ensures |r| <= |s| && r == s[|s| - |r|..]
  {
    if k >= 0 then s[if k <= |s| then k else |s|..]
    else s[if |s| + k >= 0 then |s| + k else 0..]
  }

  /** Take and Drop at the same index split the list. */
  lemma TakeDropSplit<T>(s: seq<T>, k: int)
    ensures Take(s, k) + Drop(s, k) == s
  {
  }

  /** The length of `s[:k]` for every `k`. */
  lemma TakeLength<T>(s: seq<T>, k: int)
    ensures 0 <= k ==> |Take(s, k)| == Min(k, |s|)
    ensures k < 0 ==> |Take(s, k)| == if |s| + k >= 0 then |s| + k else 0
  {
  }

  // ---------------------------------------------------------------------------
  // Record windows
  // ---------------------------------------------------------------------------

  /** The window size `get_N_records` computes: the limit (the reader's cap
      when absent), lowered to the record count and then to the cap. */
  function WindowSize(n: int, count: nat, maxRecords: int): int {
    Min(Min(n, count), maxRecords)
  }

  /** `get_N_records(limit)`: `records[:k]` for the window size k. */
  function GetNRecords(rd: Reader, records: seq<Record>, limit: Option<int>): (r: seq<Record>)
    ensures r <= records
  {
    Take(records, WindowSize(limit.GetOr(rd.maxRecords), |records|, rd.maxRecords))
  }

  /** For a non-negative limit and cap the window is the first
      min(limit, len(records), max_records) records; an absent limit means
      the cap. */
  lemma GetNRecordsLength(rd: Reader, records: seq<Record>, limit: Option<int>)
    requires rd.maxRecords >= 0 && (limit.Some? ==> limit.value >= 0)
    ensures var n := limit.GetOr(rd.maxRecords);
            |GetNRecords(rd, records, limit)| == Min(Min(n, |records|), rd.maxRecords)
    ensures limit.None? ==> |GetNRecords(rd, records, limit)| == Min(|records|, rd.maxRecords)
  {
  }

  /** With a non-negative cap, a negative limit k does not mean "nothing":
      `records[:k]` drops the last |k| records. A negative cap is applied
      first and drops records of its own. */
  lemma GetNRecordsNegative(rd: Reader, records: seq<Record>, k: int)
    requires k < 0 && rd.maxRecords >= 0
    ensures GetNRecords(rd, records, Some(k)) == records[..if |records| + k >= 0 then |records| + k else 0]
  {
  }

  /** `get_last_n_records(n)`: `records[-k:]` for k = min(n, len, max_records). */
  function GetLastNRecords(rd: Reader, records: seq<Record>, n: int): (r: seq<Record>)
    ensures |r| <= |records| && r == records[|records| - |r|..]
  {
    Drop(records, -WindowSize(n, |records|, rd.maxRecords))
  }

  /** The suffix returned, by the sign of the window size k: the last k
      records when k > 0; the whole list when k = 0, because `records[-0:]`
      is `records[0:]`; and for k < 0 the list without its first |k|
      records. */
  lemma GetLastNRecordsCases(rd: Reader, records: seq<Record>, n: int)
    ensures var k := WindowSize(n, |records|, rd.maxRecords);
            && (k > 0 ==> GetLastNRecords(rd, records, n) == records[|records| - k..])
            && (k == 0 ==> GetLastNRecords(rd, records, n) == records)
            && (k < 0 ==> GetLastNRecords(rd, records, n) == records[Min(-k, |records|)..])
  {
  }

  /** With a positive cap, a zero request gives the whole list back, not an
      empty one (`records[-0:]` is every record). A negative cap is kept by the
      reader and makes the slice drop records from the front instead. */
  lemma LastZeroIsEverything(rd: Reader, records: seq<Record>)
    requires rd.maxRecords > 0
    ensures GetLastNRecords(rd, records, 0) == records
  {
  }

  // ---------------------------------------------------------------------------
  // Field descriptors
  // ---------------------------------------------------------------------------

  function Describe(f: DbfField): FieldInfo {
    FieldInfo(f.name, f.typeCode, f.length, f.decimal.GetOr(0))
  }

  /** `get_field_info`: one descriptor per field, in order. */
  function GetFieldInfo(fields: seq<DbfField>): (r: seq<FieldInfo>)
    ensures |r| == |fields|
    ensures forall i :: 0 <= i < |fields| ==> r[i] == Describe(fields[i])
  {
    if |fields| == 0 then [] else [Describe(fields[0])] + GetFieldInfo(fields[1..])
  }

  /** One descriptor per field, in declaration order, each carrying the
      field's name, type letter and length, and its decimal count or 0. */
  lemma {:induction false} FieldInfoInOrder(fields: seq<DbfField>)
    ensures |GetFieldInfo(fields)| == |fields|
    ensures forall i :: 0 <= i < |fields| ==>
              && GetFieldInfo(fields)[i].name == fields[i].name
              && GetFieldInfo(fields)[i].typeCode == fields[i].typeCode
              && GetFieldInfo(fields)[i].length == fields[i].length
              && GetFieldInfo(fields)[i].decimal == (if fields[i].decimal.Some? then fields[i].decimal.value else 0)
  {
    if |fields| > 0 {
      FieldInfoInOrder(fields[1..]);
    }
  }

  /** The column names the encoder later writes are the DBF field names, in
      order. */
  lemma FieldInfoNames(fields: seq<DbfField>)
    ensures |FieldNames(GetFieldInfo(fields))| == |fields|
    ensures forall i :: 0 <= i < |fields| ==> FieldNames(GetFieldInfo(fields))[i] == fields[i].name
  {
    FieldInfoInOrder(fields);
  }

  /** `get_records_with_fields(limit)`: the same window as `get_N_records`
      together with the field descriptors. */
  function GetRecordsWithFields(rd: Reader, records: seq<Record>, fields: seq<DbfField>,
                                limit: Option<int>): (r: (seq<Record>, seq<FieldInfo>))
    ensures r.0 == GetNRecords(rd, records, limit)
    ensures |r.1| == |fields|
    ensures forall i :: 0 <= i < |fields| ==>
              && r.1[i].name == fields[i].name
              && r.1[i].typeCode == fields[i].typeCode
              && r.1[i].length == fields[i].length
              && r.1[i].decimal == (if fields[i].decimal.Some? then fields[i].decimal.value else 0)
  {
    FieldInfoInOrder(fields);
    (GetNRecords(rd, records, limit), GetFieldInfo(fields))
  }

  // ---------------------------------------------------------------------------
  // Table name from the file path (POSIX paths)
  // ---------------------------------------------------------------------------

  /** Index of the last occurrence of `c` in `s`, or -1 (`str.rfind`). */
  function LastIndexOf(s: string, c: char): (i: int)
    ensures -1 <= i < |s|
    ensures i >= 0 ==> s[i] == c
    ensures forall j :: i < j < |s| ==> s[j] != c
  {
    if |s| == 0 then -1
    else if s[|s| - 1] == c then |s| - 1
    else LastIndexOf(s[..|s| - 1], c)
  }

  /** `os.path.basename`: everything after the last `/`. */
  function Basename(path: string): (name: string)
    ensures '/' !in name
    ensures |name| <= |path| && name == path[|path| - |name|..]
    ensures |name| < |path| ==> path[|path| - |name| - 1] == '/'
  {
    path[LastIndexOf(path, '/') + 1..]
  }

  /** Whether `name[..dot]` holds some character other than `.`: leading dots
      do not start an extension. */
  predicate HasNonDotBefore(name: string, dot: int)
    requires 0 <= dot <= |name|
  {
    exists j :: 0 <= j < dot && name[j] != '.'
  }

  /** `os.path.splitext(name)[0]` for a name without `/`: the text before the
      last `.`, unless only dots precede that `.`. */
  function StripExtension(name: string): (stem: string)
    ensures stem <= name
  {
    var dot := LastIndexOf(name, '.');
    if dot > 0 && HasNonDotBefore(name, dot) then name[..dot] else name
  }

  /** The stem loses exactly the last extension: what is removed starts with
      `.`, holds no other `.`, and is preceded by a character other than `.`
      somewhere; when nothing is removed no such extension exists. */
  lemma StripExtensionRemovesLastSuffix(name: string)
    ensures var stem := StripExtension(name);
            stem != name ==>
              && name[|stem|] == '.'
              && (forall j :: |stem| < j < |name| ==> name[j] != '.')
              && (exists j :: 0 <= j < |stem| && name[j] != '.')
    ensures var stem := StripExtension(name);
            stem == name ==>
              forall d :: 0 < d < |name| && name[d] == '.' && (forall j :: d < j < |name| ==> name[j] != '.')
                ==> forall j :: 0 <= j < d ==> name[j] == '.'
  {
    var dot := LastIndexOf(name, '.');
    var stem := StripExtension(name);
    if stem == name {
      forall d | 0 < d < |name| && name[d] == '.' && (forall j :: d < j < |name| ==> name[j] != '.')
        ensures forall j :: 0 <= j < d ==> name[j] == '.'
      {
        assert d == dot;
      }
    }
  }

  /** The table name depends only on the file's own name, not on the
      directory it sits in. */
  lemma TableNameIgnoresDirectory(dir: string, name: string, m: int)
    requires '/' !in name
    ensures GetTableName(Reader(dir + "/" + name, m)) == Sanitize(StripExtension(name))
  {
    var p := dir + "/" + name;
    assert p[|dir|] == '/';
    assert p[|dir| + 1..] == name;
    var i := LastIndexOf(p, '/');
    assert forall j :: |dir| < j < |p| ==> p[j] == name[j - |dir| - 1];
    assert i == |dir|;
  }

  // ---------------------------------------------------------------------------
  // The sanitiser
  // ---------------------------------------------------------------------------

  /** The characters a sanitised name may hold: `[a-z0-9_]`. */
  predicate NameChar(c: char) { IsLower(c) || IsDigit(c) || c == '_' }

  predicate NoSpace(s: string) { forall i :: 0 <= i < |s| ==> !IsSpace(s[i]) }

  /** `re.sub(r'\s+', '_', s)`: every maximal run of whitespace becomes one `_`. */
  function CollapseSpace(s: string): (r: string)
    ensures NoSpace(r)
    decreases |s|
  {
    if |s| == 0 then []
    else if IsSpace(s[0]) then
      var rest := StripLeft(s);
      "_" + CollapseSpace(rest)
    else [s[0]] + CollapseSpace(s[1..])
  }

  /** `re.sub(r'[^a-z0-9_]', '', s)`. */
  function KeepNameChars(s: string): (r: string)
    ensures forall i :: 0 <= i < |r| ==> NameChar(r[i])
    ensures |r| <= |s|
  {
    if |s| == 0 then []
    else if NameChar(s[0]) then [s[0]] + KeepNameChars(s[1..])
    else KeepNameChars(s[1..])
  }

  /** The three steps of `get_table_name` after the path is cut down:
      lower-case, collapse whitespace runs to `_`, drop every other
      character outside `[a-z0-9_]`. */
  function Sanitize(s: string): (r: string)
    ensures forall i :: 0 <= i < |r| ==> NameChar(r[i])
  {
    KeepNameChars(CollapseSpace(Lower(s)))
  }

  /** `get_table_name`: basename, extension stripped, then sanitised. The
      name is drawn from `[a-z0-9_]`, and the encoder accepts it exactly when
      it holds a letter or a digit. */
  function GetTableName(rd: Reader): (r: string)
    ensures forall i :: 0 <= i < |r| ==> NameChar(r[i])
    ensures ValidateTableName(r) <==> exists i :: 0 <= i < |r| && (IsLower(r[i]) || IsDigit(r[i]))
  {
    SanitizedNameValid(StripExtension(Basename(rd.path)));
    Sanitize(StripExtension(Basename(rd.path)))
  }

  /** Text without whitespace passes the collapse unchanged. */
  lemma {:induction false} CollapseNoSpaceId(s: string)
    requires NoSpace(s)
    ensures CollapseSpace(s) == s
  {
    if |s| > 0 {
      CollapseNoSpaceId(s[1..]);
    }
  }

  /** A non-empty whitespace run collapses to a single `_`. */
  lemma CollapseRun(w: string)
    requires |w| > 0 && AllSpace(w)
    ensures CollapseSpace(w) == "_"
  {
    assert StripLeft(w) == [];
  }

  /** The collapse works piecewise across any cut that does not fall inside a
      whitespace run. */
  lemma {:induction false} CollapseAppend(a: string, b: string)
    requires |a| == 0 || |b| == 0 || !IsSpace(a[|a| - 1]) || !IsSpace(b[0])
    ensures CollapseSpace(a + b) == CollapseSpace(a) + CollapseSpace(b)
    decreases |a|, 2
  {
    if |a| == 0 {
      assert a + b == b;
    } else if IsSpace(a[0]) {
      CollapseAppendRun(a, b);
    } else {
      CollapseAppendChar(a, b);
    }
  }

  lemma {:induction false} CollapseAppendRun(a: string, b: string)
    requires |a| > 0 && IsSpace(a[0])
    requires |b| == 0 || !IsSpace(a[|a| - 1]) || !IsSpace(b[0])
    ensures CollapseSpace(a + b) == CollapseSpace(a) + CollapseSpace(b)
    decreases |a|, 1
  {
    var ra := StripLeft(a);
    StripLeftAppend(a, b);
    if |ra| == 0 {
      CollapseRunBoundary(a, b);
    } else {
      CollapseAppendAfterRun(a, b, ra);
    }
  }

  lemma {:induction false} CollapseAppendAfterRun(a: string, b: string, ra: string)
    requires |a| > 0 && IsSpace(a[0]) && ra == StripLeft(a) && |ra| > 0
    requires |b| == 0 || !IsSpace(a[|a| - 1]) || !IsSpace(b[0])
    requires StripLeft(a + b) == ra + b
    ensures CollapseSpace(a + b) == CollapseSpace(a) + CollapseSpace(b)
    decreases |a|, 0
  {
    assert |ra| < |a| && ra[|ra| - 1] == a[|a| - 1];
    CollapseAppend(ra, b);
    var ab := a + b;
    assert ab[0] == a[0];
    CollapseSpaceStep(ab, ra + b);
    CollapseSpaceStep(a, ra);
    AppendAssoc("_", CollapseSpace(ra), CollapseSpace(b));
  }

  lemma {:induction false} CollapseAppendChar(a: string, b: string)
    requires |a| > 0 && !IsSpace(a[0])
    requires |b| == 0 || !IsSpace(a[|a| - 1]) || !IsSpace(b[0])
    ensures CollapseSpace(a + b) == CollapseSpace(a) + CollapseSpace(b)
    decreases |a|, 1
  {
    var a' := a[1..];
    var ab := a + b;
    assert ab[0] == a[0] && ab[1..] == a' + b;
    assert |a'| > 0 ==> a'[|a'| - 1] == a[|a| - 1];
    CollapseAppend(a', b);
    CollapseCharStep(ab);
    CollapseCharStep(a);
    AppendAssoc([a[0]], CollapseSpace(a'), CollapseSpace(b));
  }

  lemma AppendAssoc<T>(x: seq<T>, y: seq<T>, z: seq<T>)
    ensures x + (y + z) == (x + y) + z
  {
  }

  /** One unfolding of the collapse at a leading non-whitespace character. */
  lemma CollapseCharStep(s: string)
    requires |s| > 0 && !IsSpace(s[0])
    ensures CollapseSpace(s) == [s[0]] + CollapseSpace(s[1..])
  {
  }

  /** One unfolding of the collapse at a leading whitespace run. */
  lemma CollapseSpaceStep(s: string, rest: string)
    requires |s| > 0 && IsSpace(s[0]) && rest == StripLeft(s)
    ensures CollapseSpace(s) == "_" + CollapseSpace(rest)
  {
  }

  /** When `a` is all whitespace and `b` does not start with whitespace, the
      run is exactly `a`. */
  lemma CollapseRunBoundary(a: string, b: string)
    requires |a| > 0 && IsSpace(a[0]) && |StripLeft(a)| == 0
    requires |b| == 0 || !IsSpace(b[0])
    requires StripLeft(a + b) == b
    ensures CollapseSpace(a + b) == CollapseSpace(a) + CollapseSpace(b)
  {
    var ab := a + b;
    assert ab[0] == a[0];
    CollapseSpaceStep(ab, b);
    CollapseSpaceStep(a, []);
    assert CollapseSpace(a) == "_";
  }

  /** Stripping leading whitespace off `a + b` strips it off `a` first. */
  lemma {:induction false} StripLeftAppend(a: string, b: string)
    requires |a| == 0 || |b| == 0 || !IsSpace(a[|a| - 1]) || !IsSpace(b[0])
    ensures |StripLeft(a)| > 0 ==> StripLeft(a + b) == StripLeft(a) + b
    ensures |StripLeft(a)| == 0 && (|b| == 0 || !IsSpace(b[0])) ==> StripLeft(a + b) == b
    decreases |a|
  {
    if |a| > 0 && IsSpace(a[0]) {
      assert (a + b)[1..] == a[1..] + b;
      if |a| > 1 {
        assert a[1..][|a| - 2] == a[|a| - 1];
      }
      StripLeftAppend(a[1..], b);
    } else if |a| > 0 {
      assert (a + b)[0] == a[0];
    } else {
      assert a + b == b;
    }
  }

  /** A whitespace run between two non-whitespace boundaries becomes exactly
      one `_`. */
  lemma CollapseSurroundedRun(a: string, w: string, b: string)
    requires |w| > 0 && AllSpace(w)
    requires |a| == 0 || !IsSpace(a[|a| - 1])
    requires |b| == 0 || !IsSpace(b[0])
    ensures CollapseSpace(a + w + b) == CollapseSpace(a) + "_" + CollapseSpace(b)
  {
    CollapseAppend(a, w);
    assert (a + w)[|a + w| - 1] == w[|w| - 1];
    CollapseAppend(a + w, b);
    CollapseRun(w);
  }

  /** Filtering keeps already-filtered text as it is. */
  lemma {:induction false} KeepNameCharsId(s: string)
    requires forall i :: 0 <= i < |s| ==> NameChar(s[i])
    ensures KeepNameChars(s) == s
  {
    if |s| > 0 {
      KeepNameCharsId(s[1..]);
    }
  }

  /** Every character of a sanitised name is a lower-case ASCII letter, a
      digit or `_`. */
  lemma SanitizedAlphabet(s: string)
    ensures forall i :: 0 <= i < |Sanitize(s)| ==> NameChar(Sanitize(s)[i])
  {
  }

  /** The sanitiser is idempotent. */
  lemma SanitizeIdempotent(s: string)
    ensures Sanitize(Sanitize(s)) == Sanitize(s)
  {
    var t := Sanitize(s);
    assert Lower(t) == t;
    assert NoSpace(t);
    CollapseNoSpaceId(t);
    KeepNameCharsId(t);
  }

  /** A sanitised name passes the encoder's table-name check exactly when it
      holds at least one letter or digit. */
  lemma SanitizedNameValid(s: string)
    ensures var t := Sanitize(s);
            ValidateTableName(t) <==> exists i :: 0 <= i < |t| && (IsLower(t[i]) || IsDigit(t[i]))
  {
    var t := Sanitize(s);
    if ValidateTableName(t) {
      var c :| c in t && c != '_';
      var i :| 0 <= i < |t| && t[i] == c;
      assert IsLower(t[i]) || IsDigit(t[i]);
    }
    if exists i :: 0 <= i < |t| && (IsLower(t[i]) || IsDigit(t[i])) {
      var i :| 0 <= i < |t| && (IsLower(t[i]) || IsDigit(t[i]));
      assert t[i] in t && t[i] != '_';
      assert forall c :: c in t ==> c == '_' || IsAlnum(c);
    }
  }
}

=== FILE: schema.dfy ===
/** The data the table reader hands to the core: typed cell values, records
    keyed by field name, and field descriptors in declaration order. */
module Schema {
  import opened Text

  /** A cell value. Dates carry the text Python's `str()` gives them
      (`YYYY-MM-DD`); floating-point cells are not modelled. */
  datatype Value =
    | Null
    | Int(i: int)
    | Str(s: string)
    | Bool(b: bool)
    | Date(iso: string)

  /** One row of the table, keyed by field name. */
  type Record = map<string, Value>

  /** A field descriptor as `get_field_info` shapes it: the DBF type letter is
      kept as text, and `decimal` is 0 when the field has none. */
  datatype FieldInfo = FieldInfo(name: string, typeCode: string, length: int, decimal: int)

  /** Python's `str(value)`. */
  function ToText(v: Value): string {
    match v
    case Null => "None"
    case Int(i) => IntToString(i)
    case Str(s) => s
    case Bool(b) => if b then "True" else "False"
    case Date(iso) => iso
  }

  /** Python truthiness (`if value`): None, 0, "" and False are false. */
  predicate Truthy(v: Value) {
    match v
    case Null => false
    case Int(i) => i != 0
    case Str(s) => |s| > 0
    case Bool(b) => b
    case Date(_) => true
  }

  /** Every record has a value for every field: `record[field['name']]`
      does not raise `KeyError`. */
  predicate CoversFields(records: seq<Record>, fields: seq<FieldInfo>) {
    forall k, j :: 0 <= k < |records| && 0 <= j < |fields| ==> fields[j].name in records[k]
  }
}

=== FILE: sql_examples.dfy ===
/** The worked example of the encoder and batcher: fields AMOUNT (N) and
    STATUS (C), two records, batch size 10. */
module SqlExamples {
  import opened Wrappers
  import opened Text
  import opened Schema
  import opened SqlFormatter

  const Fields: seq<FieldInfo> := [FieldInfo("AMOUNT", "N", 10, 0), FieldInfo("STATUS", "C", 1, 0)]

  /** A record with AMOUNT `n` and STATUS `s` (it may carry other keys). */
  predicate AmountStatus(r: Record, n: nat, s: string) {
    "AMOUNT" in r && r["AMOUNT"] == Int(n) && "STATUS" in r && r["STATUS"] == Str(s)
  }

  /** The whole example: one statement, quotes in 'C' values doubled, amounts bare. */
  lemma SpecimenStatement()
    ensures InsertStatements("t",
              [map["AMOUNT" := Int(100), "STATUS" := Str("A")],
               map["AMOUNT" := Int(200), "STATUS" := Str("B'x")]],
              [FieldInfo("AMOUNT", "N", 10, 0), FieldInfo("STATUS", "C", 1, 0)], 10)
            == Success(["INSERT INTO t (AMOUNT,STATUS) VALUES (100,'A'),(200,'B''x')"])
  {
    var r1: Record := map["AMOUNT" := Int(100), "STATUS" := Str("A")];
    var r2: Record := map["AMOUNT" := Int(200), "STATUS" := Str("B'x")];
    assert ValidateTableName("t") by { assert 't' in "t"; }
    SpecimenRows(r1, r2);
    OneBatch("t", [r1, r2], Fields, 10);
    SpecimenHeader();
    var rows := Join(",", RowTuples(Fields, [r1, r2]));
    assert SingleInsert("t", Fields, [r1, r2]) == InsertHeader("t", Fields) + rows;
    StatementText(InsertHeader("t", Fields), rows);
  }

  /** Joins the header and rows text. Kept apart so that the solver reasons
      about these literals in a small context. */
  lemma StatementText(header: string, rows: string)
    requires header == "INSERT INTO t (AMOUNT,STATUS) VALUES "
    requires rows == "(100,'A'),(200,'B''x')"
    ensures header + rows == "INSERT INTO t (AMOUNT,STATUS) VALUES (100,'A'),(200,'B''x')"
  {
  }

  /** With no more records than the batch size, a valid table yields one statement. */
  lemma OneBatch(table: string, records: seq<Record>, fields: seq<FieldInfo>, size: nat)
    requires 0 < |records| <= size && |fields| > 0
    requires CoversFields(records, fields) && ValidateTableName(table)
    ensures InsertStatements(table, records, fields, size) == Success([SingleInsert(table, fields, records)])
  {
    var bs := Batches(records, size);
    assert bs == [records];
    assert AllCover(bs, fields);
    assert bs[..0] == [];
    assert StatementsOf(table, fields, bs) == [SingleInsert(table, fields, records)];
  }

  lemma SpecimenHeader()
    ensures InsertHeader("t", Fields) == "INSERT INTO t (AMOUNT,STATUS) VALUES "
  {
    assert FieldNames(Fields) == ["AMOUNT", "STATUS"];
    JoinTwo(",", "AMOUNT", "STATUS");
  }

  lemma SpecimenRows(r1: Record, r2: Record)
    requires AmountStatus(r1, 100, "A") && AmountStatus(r2, 200, "B'x")
    ensures CoversFields([r1, r2], Fields)
    ensures Join(",", RowTuples(Fields, [r1, r2])) == "(100,'A'),(200,'B''x')"
  {
    SpecimenLiterals();
    SpecimenRow(r1, 100, "A", "100", "A");
    SpecimenRow(r2, 200, "B'x", "200", "B''x");
    TwoRowTuples(Fields, r1, r2);
    RowsText();
  }

  /** The specimen's tuples, reassociated. Kept apart so that the solver
      reasons about these literals in a small context. */
  lemma RowsText()
    ensures "(" + "100" + ",'" + "A" + "')" == "(100,'A')"
    ensures "(" + "200" + ",'" + "B''x" + "')" == "(200,'B''x')"
    ensures "(100,'A')" + "," + "(200,'B''x')" == "(100,'A'),(200,'B''x')"
  {
  }

  lemma SpecimenLiterals()
    ensures NatToString(100) == "100" && NatToString(200) == "200"
    ensures EscapeQuoted("A") == "A" && EscapeQuoted("B'x") == "B''x"
  {
    assert EscapeQuoted("x") == "x";
    assert EscapeQuoted("'x") == "''x";
  }

  lemma SpecimenRow(r: Record, n: nat, s: string, digits: string, e: string)
    requires AmountStatus(r, n, s) && NatToString(n) == digits && EscapeQuoted(s) == e
    ensures forall j :: 0 <= j < |Fields| ==> Fields[j].name in r
    ensures RowTuple(Fields, r) == "(" + digits + ",'" + e + "')"
  {
    assert KindOf("N") == Numeric;
    assert KindOf("C") == Character;
    TwoFieldRow(Fields[0], Fields[1], r);
    assert FormatValue(r["AMOUNT"], "N") == digits;
    assert FormatValue(r["STATUS"], "C") == "'" + e + "'";
    RowText(digits, e);
  }

  /** Reassociates a two-literal tuple. Kept apart so that the solver
      reasons about the concatenation in a small context. */
  lemma RowText(d: string, e: string)
    ensures "(" + d + "," + ("'" + e + "'") + ")" == "(" + d + ",'" + e + "')"
  {
  }

  lemma TwoRowTuples(fields: seq<FieldInfo>, r1: Record, r2: Record)
    requires forall j :: 0 <= j < |fields| ==> fields[j].name in r1 && fields[j].name in r2
    ensures CoversFields([r1, r2], fields)
    ensures Join(",", RowTuples(fields, [r1, r2])) == RowTuple(fields, r1) + "," + RowTuple(fields, r2)
  {
    TwoTuples(fields, r1, r2);
    JoinTwo(",", RowTuple(fields, r1), RowTuple(fields, r2));
  }

  lemma TwoTuples(fields: seq<FieldInfo>, r1: Record, r2: Record)
    requires forall j :: 0 <= j < |fields| ==> fields[j].name in r1 && fields[j].name in r2
    ensures CoversFields([r1, r2], fields)
    ensures RowTuples(fields, [r1, r2]) == [RowTuple(fields, r1), RowTuple(fields, r2)]
  {
    TwoCover(fields, r1, r2);
    RowTuplesInRecordOrder(fields, [r1, r2]);
  }

  lemma JoinTwo(sep: string, a: string, b: string)
    ensures Join(sep, [a, b]) == a + sep + b
  {
    assert [a, b][1..] == [b];
  }

  lemma TwoCover(fields: seq<FieldInfo>, r1: Record, r2: Record)
    requires forall j :: 0 <= j < |fields| ==> fields[j].name in r1 && fields[j].name in r2
    ensures CoversFields([r1, r2], fields)
  {
    forall k, j | 0 <= k < 2 && 0 <= j < |fields|
      ensures fields[j].name in [r1, r2][k]
    {
      assert fields[j].name in r1 && fields[j].name in r2;
    }
  }

  lemma TwoFieldRow(f1: FieldInfo, f2: FieldInfo, rec: Record)
    requires f1.name in rec && f2.name in rec
    ensures RowTuple([f1, f2], rec)
            == "(" + FormatValue(rec[f1.name], f1.typeCode) + "," + FormatValue(rec[f2.name], f2.typeCode) + ")"
  {
    RowValuesInFieldOrder([f1, f2], rec);
    var a := FormatValue(rec[f1.name], f1.typeCode);
    var b := FormatValue(rec[f2.name], f2.typeCode);
    assert RowValues([f1, f2], rec) == [a, b];
    JoinTwo(",", a, b);
  }
}

=== FILE: sql_formatter.dfy ===
/** The SQL value encoder and INSERT batcher (`SQLFormatter`).

    Values are rendered by the field's DBF type letter, never by their runtime
    type. The two `.replace` chains of the source are modelled as per-character
    escapers, tied to the sequential-replace form by `QuotedEscapeIsReplaceChain`
    and `MemoEscapeIsReplaceChain`; each escaper has a decoder it inverts. */
module SqlFormatter {
  import opened Wrappers
  import opened Text
  import opened Schema

  // ---------------------------------------------------------------------------
  // Field kinds
  // ---------------------------------------------------------------------------

  /** The rendering branches of `format_value`. `L` is listed among the known
      type letters but has no branch, so it falls to `Default`. */
  datatype FieldKind = Numeric | DateKind | Character | Memo | Default

  function KindOf(typeCode: string): (k: FieldKind)
    ensures k == Default <==> typeCode !in {"N", "D", "C", "M"}
  {
    if typeCode == "N" then Numeric
    else if typeCode == "D" then DateKind
    else if typeCode == "C" then Character
    else if typeCode == "M" then Memo
    else Default
  }

  // ---------------------------------------------------------------------------
  // Python's str.replace with a one-character pattern
  // ---------------------------------------------------------------------------

  /** `s.replace(c, t)`: every occurrence of `c` becomes `t`. */
  function Replace(s: string, c: char, t: string): string {
    if |s| == 0 then []
    else (if s[0] == c then t else [s[0]]) + Replace(s[1..], c, t)
  }

  lemma {:induction false} ReplaceAppend(a: string, b: string, c: char, t: string)
    ensures Replace(a + b, c, t) == Replace(a, c, t) + Replace(b, c, t)
  {
    if |a| > 0 {
      assert (a + b)[1..] == a[1..] + b;
      ReplaceAppend(a[1..], b, c, t);
    } else {
      assert a + b == b;
    }
  }

  /** Replacing a character the text does not contain changes nothing. */
  lemma {:induction false} ReplaceAbsent(s: string, c: char, t: string)
    requires forall i :: 0 <= i < |s| ==> s[i] != c
    ensures Replace(s, c, t) == s
  {
    if |s| > 0 {
      ReplaceAbsent(s[1..], c, t);
    }
  }

  /** What `s.replace(c, "")` keeps: exactly the characters other than `c`. */
  lemma {:induction false} ReplaceEmptyMembers(s: string, c: char)
    ensures forall x :: x in Replace(s, c, "") <==> x in s && x != c
  {
    if |s| > 0 {
      ReplaceEmptyMembers(s[1..], c);
      assert s == [s[0]] + s[1..];
    }
  }

  // ---------------------------------------------------------------------------
  // Escaping for plain quoted literals ('C' and unknown types)
  // ---------------------------------------------------------------------------

  function EscapeQuotedChar(c: char): string {
    if c == '\'' then "''" else if c == '\\' then "\\\\" else [c]
  }

  /** The body of a plain quoted literal: every `'` and every `\` doubled. */
  function EscapeQuoted(s: string): string {
    if |s| == 0 then [] else EscapeQuotedChar(s[0]) + EscapeQuoted(s[1..])
  }

  /** Collapse `''` to `'` and `\\` to `\`; a lone quote or backslash is not a
      body `EscapeQuoted` can produce. */
  function UnescapeQuoted(b: string): Option<string>
    decreases |b|
  {
    if |b| == 0 then Some([])
    else if b[0] == '\'' || b[0] == '\\' then
      if |b| >= 2 && b[1] == b[0] then Prefix(b[0], UnescapeQuoted(b[2..])) else None
    else Prefix(b[0], UnescapeQuoted(b[1..]))
  }

  function Prefix(c: char, o: Option<string>): Option<string> {
    match o
    case Some(s) => Some([c] + s)
    case None => None
  }

  /** No `'` in the body stands alone: quotes come in adjacent pairs, so a
      reader of the literal stops only at the closing quote. */
  predicate QuotesPaired(b: string)
    decreases |b|
  {
    if |b| == 0 then true
    else if b[0] == '\'' then |b| >= 2 && b[1] == '\'' && QuotesPaired(b[2..])
    else QuotesPaired(b[1..])
  }

  lemma {:induction false} UnescapeQuotedInverts(s: string)
    ensures UnescapeQuoted(EscapeQuoted(s)) == Some(s)
    ensures QuotesPaired(EscapeQuoted(s))
  {
    if |s| > 0 {
      var e := EscapeQuotedChar(s[0]);
      var rest := EscapeQuoted(s[1..]);
      UnescapeQuotedInverts(s[1..]);
      assert EscapeQuoted(s) == e + rest;
      if s[0] == '\'' || s[0] == '\\' {
        assert (e + rest)[2..] == rest;
      } else {
        assert (e + rest)[1..] == rest;
      }
      assert s == [s[0]] + s[1..];
    }
  }

  /** Source lines 36-37 (and 54-55): quotes doubled first, then backslashes.
      Neither replacement introduces the other's character, so the chain is
      the per-character escaper. */
  lemma {:induction false} QuotedEscapeIsReplaceChain(s: string)
    ensures Replace(Replace(s, '\'', "''"), '\\', "\\\\") == EscapeQuoted(s)
  {
    if |s| > 0 {
      var head := if s[0] == '\'' then "''" else [s[0]];
      assert Replace(s, '\'', "''") == head + Replace(s[1..], '\'', "''");
      ReplaceAppend(head, Replace(s[1..], '\'', "''"), '\\', "\\\\");
      QuotedEscapeIsReplaceChain(s[1..]);
      assert Replace(head, '\\', "\\\\") == EscapeQuotedChar(s[0]) by {
        if s[0] == '\'' {
          assert head == ['\''] + ['\''];
          ReplaceAppend(['\''], ['\''], '\\', "\\\\");
        } else {
          assert head == [s[0]];
        }
      }
    }
  }

  // ---------------------------------------------------------------------------
  // Escaping for E'...' memo literals
  // ---------------------------------------------------------------------------

  /** The characters a memo body never carries raw. */
  predicate IsLineControl(c: char) { c == '\n' || c == '\r' || c == '\t' }

  function EscapeMemoChar(c: char): string {
    if c == '\'' then "''"
    else if c == '\\' then "\\\\"
    else if c == '\n' then "\\n"
    else if c == '\r' then "\\r"
    else if c == '\t' then "\\t"
    else [c]
  }

  /** The body of an `E'...'` literal: quotes and backslashes doubled, LF, CR
      and TAB written as two-character escapes. */
  function EscapeMemo(s: string): string {
    if |s| == 0 then [] else EscapeMemoChar(s[0]) + EscapeMemo(s[1..])
  }

  /** The escape letter after a backslash, decoded. */
  function EscapeLetter(c: char): Option<char> {
    if c == '\\' then Some('\\')
    else if c == 'n' then Some('\n')
    else if c == 'r' then Some('\r')
    else if c == 't' then Some('\t')
    else None
  }

  /** Decode an E-string body: `''`, `\\`, `\n`, `\r`, `\t`. */
  function UnescapeMemo(b: string): Option<string>
    decreases |b|
  {
    if |b| == 0 then Some([])
    else if b[0] == '\'' then
      if |b| >= 2 && b[1] == '\'' then Prefix('\'', UnescapeMemo(b[2..])) else None
    else if b[0] == '\\' then
      if |b| >= 2 && EscapeLetter(b[1]).Some? then
        Prefix(EscapeLetter(b[1]).value, UnescapeMemo(b[2..]))
      else None
    else Prefix(b[0], UnescapeMemo(b[1..]))
  }

  /** Decoding undoes one escaped character in front of any body. */
  lemma UnescapeMemoStep(c: char, rest: string)
    ensures UnescapeMemo(EscapeMemoChar(c) + rest) == Prefix(c, UnescapeMemo(rest))
    ensures QuotesPaired(EscapeMemoChar(c) + rest) == QuotesPaired(rest)
  {
    var e := EscapeMemoChar(c);
    if |e| == 2 {
      assert (e + rest)[2..] == rest;
    } else {
      assert (e + rest)[1..] == rest;
    }
  }

  lemma {:induction false} UnescapeMemoInverts(s: string)
    ensures UnescapeMemo(EscapeMemo(s)) == Some(s)
    ensures QuotesPaired(EscapeMemo(s))
    ensures forall i :: 0 <= i < |EscapeMemo(s)| ==> !IsLineControl(EscapeMemo(s)[i])
  {
    if |s| > 0 {
      UnescapeMemoInverts(s[1..]);
      UnescapeMemoStep(s[0], EscapeMemo(s[1..]));
      assert EscapeMemo(s) == EscapeMemoChar(s[0]) + EscapeMemo(s[1..]);
      assert s == [s[0]] + s[1..];
    }
  }

  /** Five single-character replaces in the order of source lines 45-49. */
  function MemoReplaceChain(s: string): string {
    var a := Replace(s, '\'', "''");
    var b := Replace(a, '\\', "\\\\");
    var c := Replace(b, '\n', "\\n");
    var d := Replace(c, '\r', "\\r");
    Replace(d, '\t', "\\t")
  }

  lemma MemoReplaceChainAppend(a: string, b: string)
    ensures MemoReplaceChain(a + b) == MemoReplaceChain(a) + MemoReplaceChain(b)
  {
    ReplaceAppend(a, b, '\'', "''");
    var a1, b1 := Replace(a, '\'', "''"), Replace(b, '\'', "''");
    ReplaceAppend(a1, b1, '\\', "\\\\");
    var a2, b2 := Replace(a1, '\\', "\\\\"), Replace(b1, '\\', "\\\\");
    ReplaceAppend(a2, b2, '\n', "\\n");
    var a3, b3 := Replace(a2, '\n', "\\n"), Replace(b2, '\n', "\\n");
    ReplaceAppend(a3, b3, '\r', "\\r");
    var a4, b4 := Replace(a3, '\r', "\\r"), Replace(b3, '\r', "\\r");
    ReplaceAppend(a4, b4, '\t', "\\t");
  }

  lemma ReplaceOne(c: char, x: char, t: string)
    ensures Replace([c], x, t) == if c == x then t else [c]
  {
    assert [c][1..] == [];
  }

  lemma MemoReplaceChainChar(c: char)
    ensures MemoReplaceChain([c]) == EscapeMemoChar(c)
  {
    ReplaceOne(c, '\'', "''");
    if c == '\'' {
      ReplaceAbsent("''", '\\', "\\\\");
      ReplaceAbsent("''", '\n', "\\n");
      ReplaceAbsent("''", '\r', "\\r");
      ReplaceAbsent("''", '\t', "\\t");
      return;
    }
    ReplaceOne(c, '\\', "\\\\");
    if c == '\\' {
      ReplaceAbsent("\\\\", '\n', "\\n");
      ReplaceAbsent("\\\\", '\r', "\\r");
      ReplaceAbsent("\\\\", '\t', "\\t");
      return;
    }
    ReplaceOne(c, '\n', "\\n");
    if c == '\n' {
      ReplaceAbsent("\\n", '\r', "\\r");
      ReplaceAbsent("\\n", '\t', "\\t");
      return;
    }
    ReplaceOne(c, '\r', "\\r");
    if c == '\r' {
      ReplaceAbsent("\\r", '\t', "\\t");
      return;
    }
    ReplaceOne(c, '\t', "\\t");
  }

  /** Source lines 45-49 equal the per-character memo escaper: no replacement
      introduces a character that a later one matches. */
  lemma {:induction false} MemoEscapeIsReplaceChain(s: string)
    ensures MemoReplaceChain(s) == EscapeMemo(s)
  {
    if |s| > 0 {
      assert s == [s[0]] + s[1..];
      MemoReplaceChainAppend([s[0]], s[1..]);
      MemoReplaceChainChar(s[0]);
      MemoEscapeIsReplaceChain(s[1..]);
    }
  }

  // ---------------------------------------------------------------------------
  // Literals
  // ---------------------------------------------------------------------------

  /** Read back a plain quoted literal `'body'`. */
  function DecodeQuotedLiteral(lit: string): Option<string> {
    if |lit| >= 2 && lit[0] == '\'' && lit[|lit| - 1] == '\'' then
      UnescapeQuoted(lit[1..|lit| - 1])
    else None
  }

  /** Read back an escaped-string literal `E'body'`. */
  function DecodeMemoLiteral(lit: string): Option<string> {
    if |lit| >= 3 && lit[..2] == "E'" && lit[|lit| - 1] == '\'' then
      UnescapeMemo(lit[2..|lit| - 1])
    else None
  }

  /** `format_value(value, field_type)`: SQL literal text chosen by the field's
      type letter. `None` is `NULL` under every letter, a memo is `NULL`
      exactly when it is falsy, and every non-numeric literal is quoted. */
  function FormatValue(v: Value, typeCode: string): (r: string)
    ensures v.Null? ==> r == "NULL"
    ensures KindOf(typeCode) == Memo ==> (r == "NULL" <==> !Truthy(v))
    ensures !v.Null? && KindOf(typeCode) != Numeric && r != "NULL" ==> |r| >= 2 && r[|r| - 1] == '\''
  {
    if v.Null? then "NULL"
    else
      match KindOf(typeCode)
      case Numeric => ToText(v)
      case DateKind => "'" + ToText(v) + "'"
      case Memo =>
        if !Truthy(v) then "NULL"
        else
          var lit := "E'" + EscapeMemo(ToText(v)) + "'";
          assert lit[0] == 'E';
          lit
      case _ => "'" + EscapeQuoted(ToText(v)) + "'"
  }

  /** NULL whatever the type; a memo is NULL exactly when the value is falsy;
      a 'C' or unknown-type literal is quoted with no unpaired quote inside. */
  lemma FormatValueShape(v: Value, typeCode: string)
    ensures v.Null? ==> FormatValue(v, typeCode) == "NULL"
    ensures KindOf(typeCode) == Memo ==> (FormatValue(v, typeCode) == "NULL" <==> !Truthy(v))
    ensures KindOf(typeCode) in {Character, Default} && !v.Null? ==>
              var r := FormatValue(v, typeCode);
              |r| >= 2 && r[0] == '\'' && r[|r| - 1] == '\'' && QuotesPaired(r[1..|r| - 1])
  {
    if !v.Null? && KindOf(typeCode) in {Character, Default} {
      var body := EscapeQuoted(ToText(v));
      UnescapeQuotedInverts(ToText(v));
      assert ("'" + body + "'")[1..|body| + 1] == body;
    }
  }

  /** 'C' values and values of any unknown type (including 'L') read back
      exactly: collapsing `''` and `\\` recovers `str(value)`. */
  lemma QuotedLiteralRoundTrip(v: Value, typeCode: string)
    requires !v.Null? && KindOf(typeCode) in {Character, Default}
    ensures DecodeQuotedLiteral(FormatValue(v, typeCode)) == Some(ToText(v))
  {
    var body := EscapeQuoted(ToText(v));
    UnescapeQuotedInverts(ToText(v));
    var r := "'" + body + "'";
    assert FormatValue(v, typeCode) == r;
    assert r[1..|r| - 1] == body;
  }

  /** A non-empty memo reads back exactly from its `E'...'` literal, and the
      literal carries no raw LF, CR or TAB. */
  lemma MemoLiteralRoundTrip(v: Value)
    requires Truthy(v)
    ensures DecodeMemoLiteral(FormatValue(v, "M")) == Some(ToText(v))
    ensures forall i :: 0 <= i < |FormatValue(v, "M")| ==> !IsLineControl(FormatValue(v, "M")[i])
  {
    var body := EscapeMemo(ToText(v));
    UnescapeMemoInverts(ToText(v));
    var r := "E'" + body + "'";
    assert FormatValue(v, "M") == r;
    assert r[..2] == "E'";
    assert r[2..|r| - 1] == body;
    assert forall i :: 2 <= i < |r| - 1 ==> r[i] == body[i - 2];
  }

  /** Integers under 'N' are emitted as bare decimal text that reads back as
      the same integer (Python's 4300-digit conversion limit is not modelled);
      dates under 'D' are quoted without any escaping. */
  lemma NumericAndDateRendering(i: int, iso: string)
    ensures ParseInt(FormatValue(Int(i), "N")) == Some(i)
    ensures FormatValue(Date(iso), "D") == "'" + iso + "'"
  {
    ParseIntOfIntToString(i);
  }

  /** `L` has no branch of its own: `True` renders as the quoted text `'True'`. */
  lemma LogicalRendering()
    ensures FormatValue(Bool(true), "L") == "'True'"
  {
    assert KindOf("L") == Default;
    assert ToText(Bool(true)) == "True";
    EscapeQuotedPlain("True");
  }

  /** Text without quotes or backslashes is its own escape. */
  lemma {:induction false} EscapeQuotedPlain(s: string)
    requires forall i :: 0 <= i < |s| ==> s[i] != '\'' && s[i] != '\\'
    ensures EscapeQuoted(s) == s
  {
    if |s| > 0 {
      EscapeQuotedPlain(s[1..]);
      assert s == [s[0]] + s[1..];
    }
  }

  /** An empty string under 'C' is the empty literal, not NULL; under 'M' it
      is NULL. */
  lemma EmptyCharacterAndMemo()
    ensures FormatValue(Str(""), "C") == "''"
    ensures FormatValue(Str(""), "M") == "NULL"
  {
  }

  // ---------------------------------------------------------------------------
  // Table names
  // ---------------------------------------------------------------------------

  /** `str.isalnum()`: non-empty and every character alphanumeric. */
  predicate IsAlnumText(s: string) {
    |s| > 0 && forall i :: 0 <= i < |s| ==> IsAlnum(s[i])
  }

  /** `_validate_table_name`: after removing underscores, the name must be
      non-empty and alphanumeric. */
  function ValidateTableName(t: string): (ok: bool)
    ensures ok <==> (exists c :: c in t && c != '_')
                    && (forall c :: c in t ==> c == '_' || IsAlnum(c))
  {
    var stripped := Replace(t, '_', "");
    ReplaceEmptyMembers(t, '_');
    assert forall c :: c in stripped <==> c in t && c != '_';
    assert IsAlnumText(stripped) <==> |stripped| > 0 && forall c :: c in stripped ==> IsAlnum(c);
    assert |stripped| > 0 ==> stripped[0] in stripped;
    IsAlnumText(stripped)
  }

  /** Examples of accepted and rejected names. */
  lemma TableNameAccepted()
    ensures ValidateTableName("cancf_di")
  {
    var t := "cancf_di";
    assert forall i :: 0 <= i < |t| ==> t[i] == '_' || IsLower(t[i]) || IsDigit(t[i]);
    assert t[0] != '_';
    AcceptsLowerAndUnderscore(t);
  }

  lemma TableNameRejectedForeign()
    ensures !ValidateTableName("bad name")
    ensures !ValidateTableName("tab;le")
  {
    RejectsForeignChar("bad name", 3);
    RejectsForeignChar("tab;le", 3);
  }

  lemma TableNameRejectedEmpty()
    ensures !ValidateTableName("")
    ensures !ValidateTableName("___")
  {
    RejectsUnderscoresOnly("");
    RejectsUnderscoresOnly("___");
  }

  lemma RejectsForeignChar(t: string, i: nat)
    requires i < |t| && t[i] != '_' && !IsAlnum(t[i])
    ensures !ValidateTableName(t)
  {
    assert t[i] in t;
  }

  lemma RejectsUnderscoresOnly(t: string)
    requires forall i :: 0 <= i < |t| ==> t[i] == '_'
    ensures !ValidateTableName(t)
  {
  }

  /** Any name of lower-case letters, digits and underscores with at least one
      letter or digit passes. */
  lemma AcceptsLowerAndUnderscore(t: string)
    requires forall i :: 0 <= i < |t| ==> t[i] == '_' || IsLower(t[i]) || IsDigit(t[i])
    requires exists i :: 0 <= i < |t| && t[i] != '_'
    ensures ValidateTableName(t)
  {
    var i :| 0 <= i < |t| && t[i] != '_';
    assert t[i] in t;
  }

  // ---------------------------------------------------------------------------
  // Batching and INSERT statements
  // ---------------------------------------------------------------------------

  function Min(a: int, b: int): int { if a <= b then a else b }

  /** Concatenation of a sequence of batches. */
  function Flatten<T>(bs: seq<seq<T>>): seq<T> {
    if |bs| == 0 then [] else bs[0] + Flatten(bs[1..])
  }

  lemma MulStep(m: int, b: int)
    ensures (m + 1) * b == m * b + b
  {
  }

  lemma MulMono(a: int, c: int, b: int)
    requires b > 0 && a <= c
    ensures a * b <= c * b
  {
    assert c * b - a * b == (c - a) * b;
  }

  /** `m` batches of `b` rows hold `n` records exactly when `m` is ceil(n / b). */
  lemma CeilDiv(n: int, b: int, m: int)
    requires b > 0 && m >= 0 && (m - 1) * b < n <= m * b
    ensures (n + b - 1) / b == m
  {
    var x := n + b - 1;
    var q, r := x / b, x % b;
    assert x == q * b + r && 0 <= r < b;
    MulStep(m - 1, b);
    MulStep(m, b);
    if q > m {
      MulMono(m + 1, q, b);
      assert false;
    } else if q < m {
      MulMono(q, m - 1, b);
      assert false;
    }
  }

  /** The contiguous chunks of `records` of at most `size` rows each, in order. */
  function Batches<T>(records: seq<T>, size: nat): (bs: seq<seq<T>>)
    requires size > 0
    ensures |records| > 0 <==> |bs| > 0
    decreases |records|
  {
    if |records| == 0 then []
    else if |records| <= size then [records]
    else [records[..size]] + Batches(records[size..], size)
  }

  /** Batching is exhaustive and size-bounded: ceil(n / size) batches, none
      empty, none larger than `size`, all but the last exactly `size`, and
      together they are `records` in order. */
  lemma {:induction false} BatchesPartition<T>(records: seq<T>, size: nat)
    requires size > 0
    ensures var bs := Batches(records, size);
            && (|bs| - 1) * size < |records| <= |bs| * size
            && |bs| == (|records| + size - 1) / size
            && (forall k :: 0 <= k < |bs| ==> 0 < |bs[k]| <= size)
            && (forall k :: 0 <= k < |bs| - 1 ==> |bs[k]| == size)
            && Flatten(bs) == records
    decreases |records|
  {
    var bs := Batches(records, size);
    if |records| == 0 {
      CeilDiv(0, size, 0);
    } else if |records| <= size {
      CeilDiv(|records|, size, 1);
    } else {
      var rest := Batches(records[size..], size);
      BatchesPartition(records[size..], size);
      assert bs == [records[..size]] + rest;
      MulStep(|rest| - 1, size);
      MulStep(|rest|, size);
      CeilDiv(|records|, size, |rest| + 1);
      assert bs[1..] == rest;
      assert Flatten(bs) == records[..size] + Flatten(rest);
      assert records == records[..size] + records[size..];
    }
  }

  lemma SliceOfSuffix<T>(s: seq<T>, d: nat, lo: nat, hi: nat)
    requires d <= |s| && lo <= hi <= |s| - d
    ensures s[d..][lo..hi] == s[d + lo..d + hi]
  {
  }

  lemma {:induction false} BatchAt<T>(records: seq<T>, size: nat, k: nat)
    requires size > 0 && k < |Batches(records, size)|
    ensures k * size < |records|
    ensures Batches(records, size)[k] == records[k * size .. Min(k * size + size, |records|)]
    decreases k
  {
    if k > 0 {
      var tail := records[size..];
      var bs := Batches(records, size);
      assert |records| > size;
      assert bs == [records[..size]] + Batches(tail, size);
      assert bs[k] == Batches(tail, size)[k - 1];
      BatchAt(tail, size, k - 1);
      MulStep(k - 1, size);
      var lo := (k - 1) * size;
      var hi := Min(lo + size, |tail|);
      assert size + lo == k * size;
      assert size + hi == Min(k * size + size, |records|);
      SliceOfSuffix(records, size, lo, hi);
    }
  }

  /** Column names in field order. */
  function FieldNames(fields: seq<FieldInfo>): (names: seq<string>)
    ensures |names| == |fields|
    ensures forall j :: 0 <= j < |fields| ==> names[j] == fields[j].name
  {
    if |fields| == 0 then [] else [fields[0].name] + FieldNames(fields[1..])
  }

  /** One record's literals: the literal of each field's value under that
      field's type letter, in field order. */
  function RowValues(fields: seq<FieldInfo>, rec: Record): (r: seq<string>)
    requires forall j :: 0 <= j < |fields| ==> fields[j].name in rec
    ensures |r| == |fields|
    ensures forall j :: 0 <= j < |fields| ==> r[j] == FormatValue(rec[fields[j].name], fields[j].typeCode)
  {
    if |fields| == 0 then []
    else [FormatValue(rec[fields[0].name], fields[0].typeCode)] + RowValues(fields[1..], rec)
  }

  /** A row carries one literal per field, in `fields` order. */
  lemma {:induction false} RowValuesInFieldOrder(fields: seq<FieldInfo>, rec: Record)
    requires forall j :: 0 <= j < |fields| ==> fields[j].name in rec
    ensures |RowValues(fields, rec)| == |fields|
    ensures forall j :: 0 <= j < |fields| ==>
              RowValues(fields, rec)[j] == FormatValue(rec[fields[j].name], fields[j].typeCode)
  {
    if |fields| > 0 {
      RowValuesInFieldOrder(fields[1..], rec);
    }
  }

  /** `(v1,v2,...)` for one record: the literal of every field, in field
      order, joined by commas and parenthesised. */
  function RowTuple(fields: seq<FieldInfo>, rec: Record): (r: string)
    requires forall j :: 0 <= j < |fields| ==> fields[j].name in rec
    ensures |r| >= 2 && r[0] == '(' && r[|r| - 1] == ')'
    ensures |fields| > 0 ==> "(" + FormatValue(rec[fields[0].name], fields[0].typeCode) <= r
    ensures r == "(" + Join(",", seq(|fields|, j requires 0 <= j < |fields| =>
                                         FormatValue(rec[fields[j].name], fields[j].typeCode))) + ")"
  {
    var vs := RowValues(fields, rec);
    JoinStartsWithFirst(",", vs);
    assert vs == seq(|fields|, j requires 0 <= j < |fields| =>
                                 FormatValue(rec[fields[j].name], fields[j].typeCode));
    "(" + Join(",", vs) + ")"
  }

  /** A join starts with its first part. */
  lemma JoinStartsWithFirst(sep: string, parts: seq<string>)
    ensures |parts| > 0 ==> parts[0] <= Join(sep, parts)
  {
  }

  function RowTuples(fields: seq<FieldInfo>, batch: seq<Record>): seq<string>
    requires CoversFields(batch, fields)
  {
    if |batch| == 0 then []
    else [RowTuple(fields, batch[0])] + RowTuples(fields, batch[1..])
  }

  /** One tuple per record, in record order. */
  lemma {:induction false} RowTuplesInRecordOrder(fields: seq<FieldInfo>, batch: seq<Record>)
    requires CoversFields(batch, fields)
    ensures |RowTuples(fields, batch)| == |batch|
    ensures forall k :: 0 <= k < |batch| ==>
              (forall j :: 0 <= j < |fields| ==> fields[j].name in batch[k])
              && RowTuples(fields, batch)[k] == RowTuple(fields, batch[k])
  {
    if |batch| > 0 {
      RowTuplesInRecordOrder(fields, batch[1..]);
    }
  }

  /** The statement text before the first row: the same for every batch of a table. */
  function InsertHeader(table: string, fields: seq<FieldInfo>): string {
    "INSERT INTO " + table + " (" + Join(",", FieldNames(fields)) + ") VALUES "
  }

  /** `_create_single_insert`: one multi-row INSERT for a batch: the table's
      header, then every record's tuple, in record order, joined by commas. */
  function SingleInsert(table: string, fields: seq<FieldInfo>, batch: seq<Record>): (r: string)
    requires CoversFields(batch, fields)
    ensures InsertHeader(table, fields) <= r
    ensures |batch| > 0 ==> InsertHeader(table, fields) + RowTuple(fields, batch[0]) <= r
    ensures r == InsertHeader(table, fields)
                 + Join(",", seq(|batch|, k requires 0 <= k < |batch| => RowTuple(fields, batch[k])))
  {
    RowTuplesInRecordOrder(fields, batch);
    JoinStartsWithFirst(",", RowTuples(fields, batch));
    assert RowTuples(fields, batch) == seq(|batch|, k requires 0 <= k < |batch| => RowTuple(fields, batch[k]));
    InsertHeader(table, fields) + Join(",", RowTuples(fields, batch))
  }

  datatype InsertError = InvalidTableName(name: string) | EmptyInput

  predicate AllCover(bs: seq<seq<Record>>, fields: seq<FieldInfo>) {
    forall k :: 0 <= k < |bs| ==> CoversFields(bs[k], fields)
  }

  /** Statement k renders batch k. */
  lemma {:induction false} StatementsOfAt(table: string, fields: seq<FieldInfo>, bs: seq<seq<Record>>, k: nat)
    requires AllCover(bs, fields) && k < |bs|
    ensures StatementsOf(table, fields, bs)[k] == SingleInsert(table, fields, bs[k])
    decreases |bs|
  {
    if k < |bs| - 1 {
      var init := bs[..|bs| - 1];
      assert init[k] == bs[k];
      StatementsOfAt(table, fields, init, k);
    }
  }

  /** One statement per batch, in batch order. */
  function StatementsOf(table: string, fields: seq<FieldInfo>, bs: seq<seq<Record>>): (r: seq<string>)
    requires AllCover(bs, fields)
    ensures |r| == |bs|
  {
    if |bs| == 0 then []
    else StatementsOf(table, fields, bs[..|bs| - 1]) + [SingleInsert(table, fields, bs[|bs| - 1])]
  }

  /** `create_insert_statements`: the table name is checked first, then the
      inputs for emptiness; then one statement per batch, in order. */
  function InsertStatements(table: string, records: seq<Record>, fields: seq<FieldInfo>,
                            batchSize: nat): (r: Result<seq<string>, InsertError>)
    requires batchSize > 0
    requires CoversFields(records, fields)
    ensures !ValidateTableName(table) ==> r == Failure(InvalidTableName(table))
    ensures ValidateTableName(table) && (|fields| == 0 || |records| == 0) ==> r == Failure(EmptyInput)
    ensures r.Success? <==> ValidateTableName(table) && |fields| > 0 && |records| > 0
    ensures r.Success? ==> |r.value| == (|records| + batchSize - 1) / batchSize
  {
    BatchesPartition(records, batchSize);
    if !ValidateTableName(table) then Failure(InvalidTableName(table))
    else if |fields| == 0 || |records| == 0 then Failure(EmptyInput)
    else
      var bs := Batches(records, batchSize);
      BatchesCoverFields(records, fields, batchSize);
      Success(StatementsOf(table, fields, bs))
  }

  /** The batch size used when the caller gives none. */
  const DefaultBatchSize: nat := 1000

  /** `create_insert_statements` called without a batch size: batches of
      1000, so up to 1000 records make a single statement. */
  function InsertStatementsDefault(table: string, records: seq<Record>, fields: seq<FieldInfo>)
    : (r: Result<seq<string>, InsertError>)
    requires CoversFields(records, fields)
    ensures r == InsertStatements(table, records, fields, DefaultBatchSize)
    ensures r.Success? <==> ValidateTableName(table) && |fields| > 0 && |records| > 0
    ensures r.Success? ==> |r.value| == (|records| + 999) / 1000
    ensures r.Success? && |records| <= 1000 ==> |r.value| == 1
  {
    InsertStatements(table, records, fields, DefaultBatchSize)
  }

  lemma CoversSlice(records: seq<Record>, fields: seq<FieldInfo>, lo: nat, hi: nat)
    requires CoversFields(records, fields) && lo <= hi <= |records|
    ensures CoversFields(records[lo..hi], fields)
  {
    forall k, j | 0 <= k < hi - lo && 0 <= j < |fields|
      ensures fields[j].name in records[lo..hi][k]
    {
      assert records[lo..hi][k] == records[lo + k];
    }
  }

  predicate BatchesCover(records: seq<Record>, fields: seq<FieldInfo>, size: nat)
    requires size > 0
  {
    AllCover(Batches(records, size), fields)
  }

  lemma BatchesCoverFields(records: seq<Record>, fields: seq<FieldInfo>, size: nat)
    requires size > 0 && CoversFields(records, fields)
    ensures BatchesCover(records, fields, size)
  {
    forall k | 0 <= k < |Batches(records, size)|
      ensures CoversFields(Batches(records, size)[k], fields)
    {
      BatchAt(records, size, k);
      MulMono(0, k, size);
      var lo := k * size;
      CoversSlice(records, fields, lo, Min(lo + size, |records|));
    }
  }

  /** Statement k renders exactly the records `records[k*size : k*size + size]`. */
  lemma StatementsAreSlices(table: string, records: seq<Record>, fields: seq<FieldInfo>, size: nat)
    requires size > 0 && CoversFields(records, fields)
    ensures var r := InsertStatements(table, records, fields, size);
            r.Success? ==> forall k :: 0 <= k < |r.value| ==>
              0 <= k * size < |records|
              && CoversFields(records[k * size .. Min(k * size + size, |records|)], fields)
              && r.value[k] == SingleInsert(table, fields, records[k * size .. Min(k * size + size, |records|)])
  {
    var r := InsertStatements(table, records, fields, size);
    if r.Success? {
      BatchesCoverFields(records, fields, size);
      assert r.value == StatementsOf(table, fields, Batches(records, size));
      forall k | 0 <= k < |r.value|
        ensures 0 <= k * size < |records|
        ensures CoversFields(records[k * size .. Min(k * size + size, |records|)], fields)
        ensures r.value[k] == SingleInsert(table, fields, records[k * size .. Min(k * size + size, |records|)])
      {
        StatementIsSlice(table, records, fields, size, k);
      }
    }
  }

  /** The statement for batch k renders the k-th slice of the records. */
  lemma StatementIsSlice(table: string, records: seq<Record>, fields: seq<FieldInfo>, size: nat, k: nat)
    requires size > 0 && CoversFields(records, fields) && BatchesCover(records, fields, size)
    requires k < |Batches(records, size)|
    ensures 0 <= k * size < |records|
    ensures CoversFields(records[k * size .. Min(k * size + size, |records|)], fields)
    ensures StatementsOf(table, fields, Batches(records, size))[k]
            == SingleInsert(table, fields, records[k * size .. Min(k * size + size, |records|)])
  {
    BatchAt(records, size, k);
    MulMono(0, k, size);
    StatementsOfAt(table, fields, Batches(records, size), k);
  }

  /** Every statement of a table starts with the same column list, in field order. */
  lemma EveryStatementSharesHeader(table: string, records: seq<Record>, fields: seq<FieldInfo>, size: nat)
    requires size > 0 && CoversFields(records, fields)
    ensures var r := InsertStatements(table, records, fields, size);
            r.Success? ==> forall k :: 0 <= k < |r.value| ==>
              InsertHeader(table, fields) <= r.value[k]
  {
    var r := InsertStatements(table, records, fields, size);
    if r.Success? {
      BatchesCoverFields(records, fields, size);
      forall k | 0 <= k < |r.value|
        ensures InsertHeader(table, fields) <= r.value[k]
      {
        StatementsOfAt(table, fields, Batches(records, size), k);
      }
    }
  }

  /** One turn of the batch loop: the statement for batch `n` is the one for
      the slice starting at `n * size`, appended after those of batches `..n`. */
  lemma StatementsStep(table: string, fields: seq<FieldInfo>, records: seq<Record>, size: nat, n: nat, i: nat)
    requires size > 0 && BatchesCover(records, fields, size)
    requires n < |Batches(records, size)| && i == n * size
    ensures var bs := Batches(records, size);
            && i < |records| && (n + 1) * size == i + size
            && AllCover(bs[..n], fields) && AllCover(bs[..n + 1], fields)
            && bs[n] == records[i .. Min(i + size, |records|)]
            && CoversFields(bs[n], fields)
            && StatementsOf(table, fields, bs[..n + 1])
               == StatementsOf(table, fields, bs[..n])
                  + [SingleInsert(table, fields, records[i .. Min(i + size, |records|)])]
  {
    var bs := Batches(records, size);
    BatchAt(records, size, n);
    MulStep(n, size);
    var done := bs[..n + 1];
    assert done[..n] == bs[..n];
    assert done[n] == bs[n];
  }

  /** The loop stops exactly after the last batch. */
  lemma LoopExit(records: seq<Record>, size: nat, n: nat)
    requires size > 0 && n <= |Batches(records, size)| && n * size >= |records|
    ensures n == |Batches(records, size)|
  {
    var bs := Batches(records, size);
    BatchesPartition(records, size);
    if n < |bs| {
      MulMono(n, |bs| - 1, size);
      assert false;
    }
  }

  /** While the loop runs there is a batch left to render. */
  lemma LoopExitNot(records: seq<Record>, size: nat, n: nat)
    requires size > 0 && n <= |Batches(records, size)| && n * size < |records|
    ensures n < |Batches(records, size)|
  {
    BatchesPartition(records, size);
  }

  /** The source's loop over `range(0, len(records), batch_size)`: one
      statement per slice `records[i:i + batch_size]`, in order. */
  method BuildStatements(table: string, fields: seq<FieldInfo>, records: seq<Record>,
                         batchSize: nat) returns (statements: seq<string>)
    requires batchSize > 0
    requires CoversFields(records, fields)
    ensures BatchesCover(records, fields, batchSize)
    ensures statements == StatementsOf(table, fields, Batches(records, batchSize))
  {
    ghost var bs := Batches(records, batchSize);
    BatchesCoverFields(records, fields, batchSize);
    statements := [];
    var i := 0;
    assert bs[..0] == [];
    while i < |records|
      invariant |statements| <= |bs|
      invariant i == |statements| * batchSize
      invariant AllCover(bs[..|statements|], fields)
      invariant statements == StatementsOf(table, fields, bs[..|statements|])
      decreases |records| - i
    {
      LoopExitNot(records, batchSize, |statements|);
      StatementsStep(table, fields, records, batchSize, |statements|, i);
      statements := statements + [SingleInsert(table, fields, records[i .. Min(i + batchSize, |records|)])];
      i := i + batchSize;
    }
    LoopExit(records, batchSize, |statements|);
    assert bs[..|statements|] == bs;
  }

  /** `create_insert_statements`: name check, emptiness check, then the batch loop. */
  method CreateInsertStatements(table: string, records: seq<Record>, fields: seq<FieldInfo>,
                                batchSize: nat) returns (r: Result<seq<string>, InsertError>)
    requires batchSize > 0
    requires CoversFields(records, fields)
    ensures r == InsertStatements(table, records, fields, batchSize)
    ensures r.Success? ==> forall k :: 0 <= k < |r.value| ==>
              0 <= k * batchSize < |records|
              && CoversFields(records[k * batchSize .. Min(k * batchSize + batchSize, |records|)], fields)
              && r.value[k] == SingleInsert(table, fields,
                                records[k * batchSize .. Min(k * batchSize + batchSize, |records|)])
  {
    if !ValidateTableName(table) {
      return Failure(InvalidTableName(table));
    }
    if |fields| == 0 || |records| == 0 {
      return Failure(EmptyInput);
    }
    var statements := BuildStatements(table, fields, records, batchSize);
    r := Success(statements);
    StatementsAreSlices(table, records, fields, batchSize);
  }
}

=== FILE: text.dfy ===
/** Character classes and string helpers shared by the encoder, the table-name
    sanitiser, the pool's message classifier and the configuration rules.
    Python's Unicode-aware case mapping is restricted to ASCII here; the
    whitespace class is Python's full one (`str.isspace`, `\s` in `re`, and
    what `str.strip()` / `int()` skip). */
module Text {
  import opened Wrappers

  // ---------------------------------------------------------------------------
  // Character classes
  // ---------------------------------------------------------------------------

  /** Python's whitespace: U+0009..U+000D, U+001C..U+001F, space, NEL, NBSP and
      the Unicode space separators. */
  predicate IsSpace(c: char) {
    ('\t' <= c <= '\r') || ('\U{1C}' <= c <= '\U{1F}') || c == ' '
    || c == '\U{85}' || c == '\U{A0}' || c == '\U{1680}'
    || ('\U{2000}' <= c <= '\U{200A}') || c == '\U{2028}' || c == '\U{2029}'
    || c == '\U{202F}' || c == '\U{205F}' || c == '\U{3000}'
  }

  predicate IsDigit(c: char) { '0' <= c <= '9' }
  predicate IsLower(c: char) { 'a' <= c <= 'z' }
  predicate IsUpper(c: char) { 'A' <= c <= 'Z' }

  /** `str.isalnum` on one character, restricted to ASCII. */
  predicate IsAlnum(c: char) { IsDigit(c) || IsLower(c) || IsUpper(c) }

  function LowerChar(c: char): char {
    if IsUpper(c) then (c as int + 32) as char else c
  }

  function UpperChar(c: char): char {
    if IsLower(c) then (c as int - 32) as char else c
  }

  /** `str.lower()` on ASCII letters; every other character is kept. */
  function Lower(s: string): (r: string)
    ensures |r| == |s|
    ensures forall i :: 0 <= i < |s| ==> r[i] == LowerChar(s[i])
  {
    if |s| == 0 then [] else [LowerChar(s[0])] + Lower(s[1..])
  }

  /** `str.upper()` on ASCII letters; every other character is kept. */
  function Upper(s: string): (r: string)
    ensures |r| == |s|
    ensures forall i :: 0 <= i < |s| ==> r[i] == UpperChar(s[i])
  {
    if |s| == 0 then [] else [UpperChar(s[0])] + Upper(s[1..])
  }

  lemma LowerIdempotent(s: string)
    ensures Lower(Lower(s)) == Lower(s)
  {
  }

  // ---------------------------------------------------------------------------
  // Stripping
  // ---------------------------------------------------------------------------

  function StripLeft(s: string): (r: string)
    ensures |r| <= |s| && r == s[|s| - |r|..]
    ensures |r| > 0 ==> !IsSpace(r[0])
    ensures forall i :: 0 <= i < |s| - |r| ==> IsSpace(s[i])
  {
    if |s| > 0 && IsSpace(s[0]) then StripLeft(s[1..]) else s
  }

  function StripRight(s: string): (r: string)
    ensures |r| <= |s| && r == s[..|r|]
    ensures |r| > 0 ==> !IsSpace(r[|r| - 1])
    ensures forall i :: |r| <= i < |s| ==> IsSpace(s[i])
  {
    if |s| > 0 && IsSpace(s[|s| - 1]) then StripRight(s[..|s| - 1]) else s
  }

  /** Every character of `s` is whitespace (true of the empty string). */
  predicate AllSpace(s: string) { forall i :: 0 <= i < |s| ==> IsSpace(s[i]) }

  /** `str.strip()` with no argument: drop leading and trailing whitespace.
      The result is the text between the two runs of whitespace removed, kept
      as it was; it neither starts nor ends with whitespace, and it is empty
      when `s` is all whitespace. */
  function Strip(s: string): (r: string)
    ensures |r| <= |s|
    ensures |r| > 0 ==> !IsSpace(r[0]) && !IsSpace(r[|r| - 1])
    ensures |r| > 0 ==> exists i :: 0 <= i < |s| && !IsSpace(s[i])
    ensures exists i, j :: 0 <= i <= j <= |s| && r == s[i..j] && AllSpace(s[..i]) && AllSpace(s[j..])
  {
    StripIsMiddle(s);
    StripRight(StripLeft(s))
  }

  /** The stripped text is the slice between the leading and the trailing
      whitespace of `s`. */
  lemma StripIsMiddle(s: string)
    ensures exists i, j :: 0 <= i <= j <= |s| && StripRight(StripLeft(s)) == s[i..j]
              && AllSpace(s[..i]) && AllSpace(s[j..])
  {
    var l := StripLeft(s);
    var r := StripRight(l);
    var i := |s| - |l|;
    var j := i + |r|;
    AllSpacePrefix(s, i);
    AllSpaceSuffix(l, |r|);
    SliceOfSlice(s, l, r, i);
  }

  /** A prefix `r` of the suffix `l == s[i..]` is the slice of `s` at `i`, and
      what follows it in `l` is what follows it in `s`. */
  lemma SliceOfSlice(s: string, l: string, r: string, i: nat)
    requires i <= |s| && l == s[i..] && |r| <= |l| && r == l[..|r|]
    ensures r == s[i..i + |r|] && s[i + |r|..] == l[|r|..]
  {
  }

  lemma AllSpacePrefix(s: string, n: nat)
    requires n <= |s| && forall k :: 0 <= k < n ==> IsSpace(s[k])
    ensures AllSpace(s[..n])
  {
  }

  lemma AllSpaceSuffix(s: string, n: nat)
    requires n <= |s| && forall k :: n <= k < |s| ==> IsSpace(s[k])
    ensures AllSpace(s[n..])
  {
    forall k | 0 <= k < |s| - n
      ensures IsSpace(s[n..][k])
    {
      assert s[n..][k] == s[n + k];
    }
  }

  // ---------------------------------------------------------------------------
  // Substrings and joining
  // ---------------------------------------------------------------------------

  predicate OccursAt(s: string, sub: string, i: int) {
    0 <= i && i + |sub| <= |s| && s[i..i + |sub|] == sub
  }

  /** Python's `sub in s`. */
  function Contains(s: string, sub: string): (r: bool)
    ensures r <==> exists i :: OccursAt(s, sub, i)
    decreases |s|
  {
    if |sub| > |s| then
      assert forall i :: !OccursAt(s, sub, i);
      false
    else if sub <= s then
      assert OccursAt(s, sub, 0);
      true
    else
      var r := Contains(s[1..], sub);
      assert forall i :: OccursAt(s[1..], sub, i) <==> OccursAt(s, sub, i + 1) by {
        forall i ensures OccursAt(s[1..], sub, i) <==> OccursAt(s, sub, i + 1) {
          if 0 <= i && i + |sub| <= |s| - 1 {
            assert s[1..][i..i + |sub|] == s[i + 1..i + 1 + |sub|];
          }
        }
      }
      assert !OccursAt(s, sub, 0);
      assert forall i :: OccursAt(s, sub, i) ==> i > 0 && OccursAt(s[1..], sub, i - 1);
      r
  }

  /** Python's `sep.join(parts)`. */
  function Join(sep: string, parts: seq<string>): string {
    if |parts| == 0 then []
    else if |parts| == 1 then parts[0]
    else parts[0] + sep + Join(sep, parts[1..])
  }

  // ---------------------------------------------------------------------------
  // Integers as decimal text: Python's str(int) and int(str)
  // ---------------------------------------------------------------------------

  function DigitChar(d: nat): (c: char)
    requires d < 10
    ensures IsDigit(c)
  {
    ('0' as int + d) as char
  }

  function DigitValue(c: char): nat
    requires IsDigit(c)
  {
    c as int - '0' as int
  }

  /** Decimal digits of `n` without leading zeros (`str` of a non-negative int). */
  function NatToString(n: nat): (r: string)
    ensures |r| > 0
    ensures forall i :: 0 <= i < |r| ==> IsDigit(r[i])
    decreases n
  {
    if n < 10 then [DigitChar(n)] else NatToString(n / 10) + [DigitChar(n % 10)]
  }

  /** Python's `str(i)` for an int. */
  function IntToString(i: int): string {
    if i < 0 then "-" + NatToString(-i) else NatToString(i)
  }

  /** A digit string as Python's `int()` accepts it: ASCII digits, with single
      underscores allowed only between two digits. */
  predicate DigitsValid(t: string) {
    && |t| > 0
    && DigitsOrUnderscores(t)
    && IsDigit(t[0])
    && IsDigit(t[|t| - 1])
    && forall i :: 0 <= i < |t| ==>
         IsDigit(t[i]) || (t[i] == '_' && i + 1 < |t| && IsDigit(t[i + 1]))
  }

  predicate DigitsOrUnderscores(t: string) {
    forall i :: 0 <= i < |t| ==> IsDigit(t[i]) || t[i] == '_'
  }

  /** The value of a digit string, underscores ignored. */
  function DigitsValue(t: string): nat
    requires DigitsOrUnderscores(t)
  {
    if |t| == 0 then 0
    else if t[|t| - 1] == '_' then DigitsValue(t[..|t| - 1])
    else DigitsValue(t[..|t| - 1]) * 10 + DigitValue(t[|t| - 1])
  }

  /** Python's `int(s)` on a `str` in base 10: surrounding whitespace is
      skipped, one optional sign, then a valid digit string; anything else is
      a `ValueError` (None here). */
  function ParseInt(s: string): (r: Option<int>)
    ensures (forall i :: 0 <= i < |s| ==> IsSpace(s[i])) ==> r.None?
    ensures r.Some? && r.value < 0 ==> Strip(s)[0] == '-'
  {
    var t := Strip(s);
    if |t| > 0 && (t[0] == '-' || t[0] == '+') then
      var d := t[1..];
      if DigitsValid(d) then
        var v: int := DigitsValue(d);
        Some(if t[0] == '-' then -v else v)
      else None
    else if DigitsValid(t) then Some(DigitsValue(t))
    else None
  }

  lemma StripUnpadded(s: string)
    requires |s| > 0 && !IsSpace(s[0]) && !IsSpace(s[|s| - 1])
    ensures Strip(s) == s
  {
  }

  lemma {:induction false} NatToStringValue(n: nat)
    ensures DigitsValid(NatToString(n))
    ensures DigitsValue(NatToString(n)) == n
    decreases n
  {
    var r := NatToString(n);
    if n >= 10 {
      NatToStringValue(n / 10);
      assert r[..|r| - 1] == NatToString(n / 10);
      assert DigitValue(r[|r| - 1]) == n % 10;
    }
  }

  /** `int(str(i)) == i`: the numeric text the encoder emits reads back as the
      same integer. Python's 4300-digit conversion limit is not modelled. */
  lemma ParseIntOfIntToString(i: int)
    ensures ParseInt(IntToString(i)) == Some(i)
  {
    if i < 0 {
      ParseIntOfNegative(i);
    } else {
      ParseIntOfNatural(i);
    }
  }

  /** Every rendering of an integer reads back as that integer. */
  lemma ParseIntOfRendering()
    ensures forall i :: ParseInt(IntToString(i)) == Some(i)
  {
    forall i ensures ParseInt(IntToString(i)) == Some(i) {
      ParseIntOfIntToString(i);
    }
  }

  lemma ParseIntOfNatural(n: nat)
    ensures ParseInt(NatToString(n)) == Some(n)
  {
    NatToStringValue(n);
    ParseDigits(NatToString(n), n);
  }

  /** A valid digit string with no sign reads as its value. */
  lemma ParseDigits(d: string, v: int)
    requires DigitsValid(d) && DigitsValue(d) == v
    ensures ParseInt(d) == Some(v)
  {
    StripUnpadded(d);
  }

  lemma ParseIntOfNegative(i: int)
    requires i < 0
    ensures ParseInt("-" + NatToString(-i)) == Some(i)
  {
    NatToStringValue(-i);
    ParseMinusDigits(NatToString(-i), i);
  }

  /** A minus sign before a valid digit string reads as the negated value. */
  lemma ParseMinusDigits(d: string, v: int)
    requires DigitsValid(d) && DigitsValue(d) == -v
    ensures ParseInt("-" + d) == Some(v)
  {
    var s := "-" + d;
    assert s[0] == '-' && s[1..] == d && s[|s| - 1] == d[|d| - 1];
    StripUnpadded(s);
  }
}

=== FILE: wrappers.dfy ===
/** Option and Result, the failure-carrying datatypes used throughout the model
    in place of Python's None and raised exceptions. */
module Wrappers {

  datatype Option<+T> = None | Some(value: T) {

    /** The wrapped value, or `default` when there is none (Python's `x if x is not None else d`). */
    function GetOr(default: T): T {
      match this
      case Some(v) => v
      case None => default
    }
  }

  datatype Result<+R, +E> = Success(value: R) | Failure(error: E)
}
